=== FILE: README.md ===
# A verified model of roo's Excelx cell decoding

roo reads `.xlsx` workbooks (Office Open XML, ECMA-376 Part 1). This project
models the part of `Roo::Excelx` that turns the already-parsed XML parts of a
workbook into typed cells and rows, and it proves properties of that model in
Dafny. The parts are the workbook, the sheets, the shared strings, the styles
and the comments. The model covers:

- the number-format classifier `Format.to_type` and its built-in tables;
- the style table: `read_styles`, `attribute2format` and `font`;
- the shared-string table, `read_shared_strings`;
- the cell decoder `parse_cell`, with the workbook's base date
  (`read_base_date`);
- row assembly: `cells_for_row_element`, the blank-row rule shared by
  `each_row_loaded` and `each_row_streaming`, and `each_row` with its
  `strip_nils` and `max_rows` options;
- the per-sheet cell store: `read_cells` and `set_cell_values`, and the
  readers built on it (`cell`, `celltype`, `formula`, `excelx_type`,
  `excelx_value`, `excelx_format`, `font`);
- defined names (`read_labels`, `label`) and cell comments
  (`read_comments`);
- the guards that refuse a method in the wrong loading mode.

An XML element is a datatype: a name, an attribute map, element children and
text content (`Xml.Element`). Numbers are exact `real`s. A date is a whole
number of days after 1899-12-30, and the 1904 date system starts 1462 days
later. A raised exception becomes the `Err` case of a `Result`. Each
`Common.Error` value names one of the conditions the Ruby code raises on.

Modules, in dependency order:

- `Common`: Option, Result, the error kinds, and a traversal that stops at the
  first failure.
- `RubyCore`: the Ruby core behaviours the code relies on. These are
  `String#to_i`, `nil.to_i`, `nil.to_s`, ASCII `downcase`, `split` and
  `Array#[]` with negative indices.
- `Xml`: elements, attribute lookup, children by name, and descendants by name
  (`//name`).
- `A1`: A1 references and column letters.
- `NumberFormat`, `Styles`, `SharedStrings`, `Dates`, `CellDecoder`, `Sheets`,
  `Rows`, `CellStore`, `Labels`, `Comments`: one module per part of the
  reader listed above.

Behaviours of the code a reader may not expect:

- A `:time` value is the serial times 86400, with no rounding to the second.
- An inline string (`is`) takes the text of its first `t` child only. It does
  not join rich-text runs.
- A comment keeps the text of its last run (lines 695-698). The runs are not
  joined.
- A numeric cell whose text does not parse is never stored as a string.
  `String#to_f` never raises, so that fallback (line 668) cannot be reached.
- `attribute2format` gives nil, not "General", for a number-format id that has
  no custom code and is not built in. That nil classifies as Float. The id
  is read with `to_i`, so a missing id, or one that does not start with a
  digit, reads as 0, which is "General".

## Model

| member | source | states |
|---|---|---|
| NumberFormat.ToType | lib/roo/excelx.rb:42-61 | every format code, nil included, is classified as one of float, date, time, datetime or percentage, never as string, boolean or formula |
| NumberFormat.ToTypeCharacterised | lib/roo/excelx.rb:42-60 | each of the five answers holds exactly when its rule applies, in precedence order. The two exceptional twelve-hour codes are dates although they contain 'h' and 's'. Otherwise '#' gives float. A date letter gives datetime with a time letter and date without one. A time letter alone gives time, '%' alone gives percentage, and anything else gives float |
| NumberFormat.ToTypeOfHash | lib/roo/excelx.rb:46-47 | a code that contains '#' and is not exceptional is float, whatever the case of its letters |
| NumberFormat.ToTypeIgnoresCase | lib/roo/excelx.rb:43 | a code and its lower-cased form are classified alike |
| NumberFormat.ToTypeOfNothing | lib/roo/excelx.rb:42-60 | nil reads as the empty code and, like "General", is float |
| NumberFormat.StandardRedAccountingIsFloat | lib/roo/excelx.rb:32 | built-in id 38 is float: its '#' wins over the 'd' of "[Red]" |
| NumberFormat.StandardTwelveHourIsDate | lib/roo/excelx.rb:26 | built-in id 18 ("h:mm AM/PM") is date, because the exceptional table matches it once lower-cased |
| NumberFormat.StandardTwelveHourSecondsIsDate | lib/roo/excelx.rb:27 | built-in id 19 ("h:mm:ss AM/PM") is date, by the exceptional table |
| NumberFormat.StandardMinutesIsTime | lib/roo/excelx.rb:35 | built-in id 45 ("mm:ss") is time, because of its 's' |
| NumberFormat.ExceptionalIsDate | lib/roo/excelx.rb:42-45 | any code that lower-cases to one of the two twelve-hour codes is a date, whatever its case |
| Styles.NumFmtMap | lib/roo/excelx.rb:801-803 | every numFmt's id is a key of the custom-format map, and every key is the id of some numFmt |
| Styles.NumFmtMapLastWins | lib/roo/excelx.rb:801-803 | when an id repeats, the map keeps the formatCode of its last numFmt |
| Styles.ReadStyles | lib/roo/excelx.rb:798-818 | without a styles part there are no tables and no fonts. Otherwise the custom formats are the `numFmt` elements' ids mapped to their codes, and each cell format contributes, at its own position, its numFmtId and the font its fontId selects. A fontId selects with Ruby's indexing: nil reads as 0, negatives count from the end, and an index outside the fonts gives nil |
| Styles.Attribute2Format | lib/roo/excelx.rb:821-824 | fails exactly when the workbook has no styles part. Otherwise the answer is the custom code of the style's number-format id when one is registered, else the built-in code of that id (nil for an id the table lacks) |
| Styles.FontAt | lib/roo/excelx.rb:205-208 | the font at the style index, 0 when the cell has none. Negative indices count from the end, and nil is the answer outside the fonts |
| Styles.UnknownFormatIsFloat | lib/roo/excelx.rb:821-824 | a number-format id with no custom code that is not built in resolves to nil, which classifies as float |
| Styles.MissingIdIsGeneral | lib/roo/excelx.rb:821-824 | a style index outside the cell formats has no id, which reads as 0: "General", classified as float |
| SharedStrings.ReadSharedStrings | lib/roo/excelx.rb:778-795 | one entry per `si` item of the `sst` root, in order, each the item's fold. The table is empty without a shared-strings part |
| SharedStrings.ItemFoldIsReference | lib/roo/excelx.rb:780-792 | visiting an item's children in order gives the text of its last plain `t`, followed by the texts of the runs after it. A `t` discards the runs before it |
| SharedStrings.SharedEntryIsReference | lib/roo/excelx.rb:778-795 | every entry of the table is its item read that way |
| SharedStrings.RunsOnlyItem | lib/roo/excelx.rb:781-788 | an item made only of runs is the concatenation of the runs' `t` texts |
| Dates.BaseDateLoop | lib/roo/excelx.rb:835-839 | visiting the workbookPr elements switches to the 1904 system exactly when some element asks for it, and nothing switches back |
| Dates.ReadBaseDate | lib/roo/excelx.rb:833-841 | the base date is 1899-12-30 (day 0) or 1904-01-01 (day 1462). It is 1904-01-01 exactly when some workbookPr's date1904 contains "true" in any case, or a "1" |
| Dates.Date1904Values | lib/roo/excelx.rb:836 | "1" and "TRUE" select the 1904 system, and "0" does not |
| Dates.Base1904IsJanuaryFirst1904 | lib/roo/excelx.rb:837 | day 1462 after 1899-12-30 is 1904-01-01 in the Gregorian calendar |
| Dates.Serial61IsMarchFirst1900 | lib/roo/excelx.rb:834 | counting from 1899-12-30 puts serial 61 on 1900-03-01, as the spreadsheet's 1900 system does |
| Dates.Serial60IsFebruary28th1900 | lib/roo/excelx.rb:834 | serial 60, which the 1900 system shows as the non-existent 1900-02-29, reads as 1900-02-28 |
| Dates.Round6 | lib/roo/excelx.rb:659 | rounding to six decimals gives a whole number of millionths, at most half a millionth away, and a value exactly halfway is rounded away from zero |
| Dates.RoundedMicros | lib/roo/excelx.rb:659 | the whole number of millionths nearest to a serial, at most half away, a value exactly halfway going away from zero |
| Dates.StampOf | lib/roo/excelx.rb:659 | a datetime's second of the day lies in 0..86399. The (day, second) pair is the base date plus the serial rounded to six decimals, rounded to the nearest second with halves up |
| Dates.StampOfWholeSerial | lib/roo/excelx.rb:659 | a whole serial is midnight of the day that many days after the base |
| CellDecoder.Declared | lib/roo/excelx.rb:593-610 | `t` = s, b, str and inlineStr give shared, boolean, string and inline string without consulting the styles. Any other `t` classifies the style's format code, and fails exactly when there is no styles part |
| CellDecoder.Reclassify | lib/roo/excelx.rb:636-643 | a time or datetime serial of at least 1.0 becomes datetime when it has more than a millionth of a day past midnight, and date otherwise. Every other type, and every serial below 1.0, is kept |
| CellDecoder.PlainNumber | lib/roo/excelx.rb:667-671 | a plain number is stored as an Integer exactly when it is whole, with the same value, and as the number itself otherwise |
| CellDecoder.CellContext | lib/roo/excelx.rb:589-612 | reading a cell's context succeeds exactly when its type can be declared and its reference parses. A missing styles part is reported before a bad reference. The style index is the `s` attribute read with `to_i`, the declared type is the one `t` and the style give, and the position is the one `r` names |
| CellDecoder.ParseCell | lib/roo/excelx.rb:588-684 | fails exactly when the cell needs a format but there is no styles part, or when its reference does not parse. The failure is of one of those two kinds, and the decoded cell has the position its reference names |
| CellDecoder.ScanKeepsPosition | lib/roo/excelx.rb:613-683 | whichever child decides it, the cell keeps the position read from its reference |
| CellDecoder.ScanIsReference | lib/roo/excelx.rb:613-683 | visiting the children in order gives this: the first deciding child decides the cell, with the last `f` before it as formula; with no deciding child the cell is empty |
| CellDecoder.ParseCellIsReference | lib/roo/excelx.rb:588-684 | a cell whose type and position can be read is the cell its first deciding child gives |
| CellDecoder.DecidedByValue | lib/roo/excelx.rb:635-680 | a cell decided by a `v` child is that child's value cell |
| CellDecoder.SharedStringCell | lib/roo/excelx.rb:646-650 | `t="s"`: the value is the shared entry at the index the text reads as (nil outside the table), typed string, with internal type string and the raw text as internal value |
| CellDecoder.BooleanCell | lib/roo/excelx.rb:651-652 | `t="b"`: "TRUE" exactly when the text reads as 1, "FALSE" otherwise, typed boolean, internal type numeric with an empty format |
| CellDecoder.FormulaStringCell | lib/roo/excelx.rb:662-664 | `t="str"`: the raw text, typed string |
| CellDecoder.InlineStringCell | lib/roo/excelx.rb:615-631 | an `is` child with a `t` decides the cell, whatever `t` says, as the text of its first `t`, typed string |
| CellDecoder.ReclassifiedCell | lib/roo/excelx.rb:636-659 | a time or datetime format with a serial of at least one day gives one of two cells. With a time of day, it is a datetime at the base date plus the serial. Otherwise it is a date at the base date plus the whole days the text reads as |
| CellDecoder.ReclassifiedValue | lib/roo/excelx.rb:636-659 | the value cell of a time or datetime serial of at least one day is a datetime when it has a time of day, and the date of its whole days otherwise |
| CellDecoder.TimeOfDayCell | lib/roo/excelx.rb:656-657 | a time format with a serial below one day stays time: the serial times 86400 seconds |
| CellDecoder.DateCell | lib/roo/excelx.rb:653-655 | a date format is never reclassified: the base date plus the whole days the text reads as |
| CellDecoder.PlainNumberCell | lib/roo/excelx.rb:667-671 | a float format gives type float, and an Integer value exactly when the number is whole |
| CellDecoder.EmptyCellHasNothing | lib/roo/excelx.rb:683 | a cell with no deciding child has no value, type, formula or sheet, whatever `f` children it has |
| CellDecoder.FormulaBeforeDecision | lib/roo/excelx.rb:633-634 | a decided cell records the last `f` before its deciding child, the `s` index and the sheet it was read for |
| Rows.Gap | lib/roo/excelx.rb:421 | the number of blank rows between the last row number and the next is max(0, next - last - 1) |
| Rows.FillGapsKeepsRows | lib/roo/excelx.rb:438-444 | adding blank rows adds nothing else: the declared rows come out once each, in document order |
| Rows.FillGapsPositions | lib/roo/excelx.rb:439-443 | with ascending row numbers, the rows yielded run up to the last row number, and the row numbered p is yielded in place p - 1 |
| Rows.EntryOf | lib/roo/excelx.rb:581 | with `cells: true` the entry is the cell. Otherwise it is nil exactly when the cell has no value, and the value when it has one |
| Rows.Place | lib/roo/excelx.rb:581 | assigning past the end of a Ruby array pads it with nils, and nothing else changes |
| Rows.AssembleLastWins | lib/roo/excelx.rb:574-585 | an assembled row reaches the greatest column. Index k holds the entry of the last cell in column k + 1, or nil when no cell is there |
| Rows.ParseAll | lib/roo/excelx.rb:578-579 | parsing succeeds exactly when every element parses, with one cell per element in order, each in a column of at least 1. Otherwise the error is that of the first element that fails |
| Rows.CellsForRow | lib/roo/excelx.rb:574-585 | a row fails only with a cell-decoding error |
| Rows.StripNils | lib/roo/excelx.rb:394 | `strip_nils` removes a suffix made only of nil entries and leaves no nil at the end; interior nils stay |
| Rows.Limit | lib/roo/excelx.rb:396-397 | `max_rows` keeps exactly that many rows when there are enough, and all of them when it is absent, below 1 or larger |
| Rows.LoadedSlots | lib/roo/excelx.rb:429-445 | the loaded traversal refuses when the sheets were not loaded, and a sheet without a part is invalid. Otherwise it yields the sheetData rows with blank rows filled in |
| Rows.StreamedSlots | lib/roo/excelx.rb:404-426 | the streamed traversal refuses when the sheets were loaded, and a sheet without a part is invalid. Otherwise it yields every row element with blank rows filled in |
| Rows.RowOf | lib/roo/excelx.rb:574-585 | a blank row is yielded empty. A declared row succeeds exactly when all its cells parse, and is then its cells assembled by column, stripped of trailing nils when `strip_nils` is set; otherwise it fails with the parse error |
| Rows.DeclaredRowIsAssembled | lib/roo/excelx.rb:574-585 | a yielded declared row holds at index k the entry of the last cell of its row element in column k + 1, or nil, and runs to the greatest column unless `strip_nils` cut trailing nils |
| Rows.RowsOf | lib/roo/excelx.rb:392-398 | the rows succeed exactly when every slot's row does, one row per slot, each that slot's row. Otherwise the error is that of the first slot that fails |
| Rows.LimitedRows | lib/roo/excelx.rb:392-398 | only the rows up to `max_rows` are parsed: the result succeeds exactly when each of them does, holds that many rows counting blank ones, each its slot's row, and otherwise fails with the first failing row's error |
| Rows.EachRow | lib/roo/excelx.rb:384-399 | `each_row` never hits a mode guard, because it picks the traversal the workbook was opened for, and a sheet without a part is invalid. It succeeds exactly when every row up to `max_rows` parses, and its rows are then those slots' rows; otherwise it fails with the first failing row's error |
| Rows.Slots | lib/roo/excelx.rb:388-392 | the traversal `each_row` picks fails exactly when the sheet has no part, as an invalid sheet |
| Rows.YieldRows | lib/roo/excelx.rb:392-398 | rows are handed over one at a time, each its slot's row, until the first row that raises; that row's error ends the iteration, and none means every row was handed over |
| Rows.EachRowYields | lib/roo/excelx.rb:384-399 | a block given to `each_row` receives nothing when the sheet has no part. Otherwise it receives the rows up to `max_rows` in order, stopping at the first row that raises |
| Rows.EachRowIsYielded | lib/roo/excelx.rb:384-399 | collecting what the block receives gives `each_row`'s rows when no row raises, and the failing row's error otherwise |
| Rows.YieldCutIsPrefix | lib/roo/excelx.rb:396-397 | stopping after n rows hands over the first n rows of the uncut iteration, so a row past the cut is never parsed and one that would raise there changes nothing |
| Rows.TopRows | lib/roo/excelx.rb:414-418 | when rows sit only in sheetData, the rows met in document order are the rows of the sheetData elements |
| Rows.StreamedRowsAreLoadedRows | lib/roo/excelx.rb:414-438 | on a worksheet whose rows all sit in `sheetData` (no row elsewhere, none inside a row), streaming meets the same rows, in the same order, as the loaded traversal |
| Rows.RowOutsideSheetDataIsStreamedOnly | lib/roo/excelx.rb:414-438 | without that condition the traversals differ: a `row` outside `sheetData` is met by streaming and not by the loaded traversal |
| Rows.EachRowSameInBothModes | lib/roo/excelx.rb:384-445 | on a worksheet whose rows all sit in `sheetData` (no row elsewhere, none inside a row), `each_row` yields the same rows whether or not the workbook was opened with `minimal_load` |
| CellStore.SetCellValues | lib/roo/excelx.rb:452-469 | the cell's sheet gains its maps. Its position now holds the cell's value, type, internal type, internal value and style, and every other position is untouched. The formula is written only when the cell has one |
| CellStore.FormulaSurvivesRewrite | lib/roo/excelx.rb:460 | a later write without a formula keeps an earlier formula at that position, while the value is overwritten |
| CellStore.StoreAllLastWins | lib/roo/excelx.rb:522-526 | after a run of writes each position holds the last cell written there, and every other position keeps what it had |
| CellStore.StoreAllFormulas | lib/roo/excelx.rb:522-526 | after a run of writes a position's formula is the last one written there, else the one it had |
| CellStore.StoreAllSheets | lib/roo/excelx.rb:522-526 | a run of writes creates the maps of exactly the sheets written to, keeps cell and formula maps in step, and marks nothing read |
| CellStore.ScanCells | lib/roo/excelx.rb:522-526 | scanning fails only with a cell-decoding error and marks nothing read |
| CellStore.ScanCellsIsStoreAll | lib/roo/excelx.rb:522-526 | a scan succeeds exactly when every element parses. It then equals writing the parsed cells in order; otherwise it fails with the first parse error |
| CellStore.ReadCells | lib/roo/excelx.rb:513-528 | an unlisted sheet is invalid, and unloaded documents refuse. A sheet without a part is invalid. A sheet already read returns the store unchanged. A first read succeeds exactly when every `c` element parses, fails with the first parse error otherwise, marks the sheet read, and keeps cell and formula maps in step |
| CellStore.ReadCellsOnce | lib/roo/excelx.rb:521 | a second read of the same sheet changes nothing |
| CellStore.ReadCellsStoresParsedCells | lib/roo/excelx.rb:521-528 | the first read of a sheet stores exactly the cells parsed from its `c` elements, in document order, and marks it read |
| CellStore.Lookup | lib/roo/excelx.rb:156 | looking up a position raises exactly when the sheet has no map, and is nil when the position is not in it |
| CellStore.CellAt | lib/roo/excelx.rb:151-157 | `cell` reads the sheet first and fails as that read fails. It then succeeds exactly when the sheet has a cell map, raising for want of it otherwise, and answers with the stored value at the position, or nil |
| CellStore.FormulaAt | lib/roo/excelx.rb:162-167 | `formula` reads the sheet first and fails as that read fails. It then succeeds exactly when the sheet has a formula map, and answers with the stored formula at the position, or nil |
| CellStore.CellTypeAt | lib/roo/excelx.rb:219-228 | `celltype` reads the sheet first. It succeeds exactly when the sheet has a formula map and, where no formula is stored, a cell map. It answers formula wherever a formula is stored, and the stored type otherwise |
| CellStore.ExcelxTypeAt | lib/roo/excelx.rb:234-239 | `excelx_type` reads the sheet first, succeeds exactly when the sheet has a cell map, and answers with the stored internal type, or nil |
| CellStore.ExcelxValueAt | lib/roo/excelx.rb:243-248 | `excelx_value` reads the sheet first, succeeds exactly when the sheet has a cell map, and answers with the stored raw text, or nil |
| CellStore.StyleAt | lib/roo/excelx.rb:205 | the stored style index raises exactly when the sheet has no map, and is nil where no cell is |
| CellStore.ExcelxFormatAt | lib/roo/excelx.rb:251-257 | `excelx_format` reads the sheet first and succeeds exactly when the sheet has a cell map and the workbook a styles part. It is the format code of the stored style index (nil reads as 0), as a string |
| CellStore.FontOfCell | lib/roo/excelx.rb:201-209 | `font` reads the sheet first, succeeds exactly when the sheet has a cell map, and is the font of the stored style index, with index 0 when no cell is there |
| CellStore.CellAtIsLastParsed | lib/roo/excelx.rb:151-157 | on a sheet's first read, `cell` answers with the value of the last cell parsed at that position, or nil |
| CellStore.NoCellsExactlyWhenNoneParsed | lib/roo/excelx.rb:156 | on a first read into an empty store, `cell` raises for want of the sheet's map exactly when no parsed cell belongs to the sheet. Empty cells are stored under no sheet |
| CellStore.FormulaOverridesType | lib/roo/excelx.rb:223-224 | wherever `formula` finds a formula, `celltype` answers formula |
| Sheets.Open | lib/roo/excelx.rb:101-122 | an opened workbook is loaded exactly when `minimal_load` is off. Its shared strings, styles and base date are those the parts give. The workbook document, the sheet and comment parts and the number reader are kept as given |
| Sheets.SheetNames | lib/roo/excelx.rb:260-264 | the sheet names are the `name` of each `sheet` element, in order |
| Sheets.IndexOf | lib/roo/excelx.rb:272 | `Array#index`: the first position holding the value, or nil when none does |
| Sheets.SheetPart | lib/roo/excelx.rb:516-519 | a sheet's part exists exactly when its name is listed and a part sits at its index; otherwise the sheet is invalid |
| Labels.PieceAt | lib/roo/excelx.rb:707 | multiple assignment from an array gives the piece at the index, nil past the end |
| Labels.ParseDefinedName | lib/roo/excelx.rb:706-708 | a defined name raises exactly when its text has no "!$" to split at. Otherwise the sheet is the text before the first "!$"; the column and the row are the first two "$" pieces after it |
| Labels.GatherLastWins | lib/roo/excelx.rb:704-709 | a name is a key exactly when some definition carries it, and it maps to what its last definition says |
| Labels.LabelsOf | lib/roo/excelx.rb:703-710 | the labels are read exactly when every definition parses; otherwise the error is a malformed definition |
| Labels.LabelsOfLastWins | lib/roo/excelx.rb:704-709 | a name is defined when some definition carries it, and it labels what its last definition says |
| Labels.Resolve | lib/roo/excelx.rb:300-302 | a label resolves to its row read with `to_i`, its column letters as a column number, and its sheet |
| Labels.Label | lib/roo/excelx.rb:295-304 | `label` is nil for an undefined name and the resolved cell for a defined one. It fails when the labels cannot be read |
| Labels.FirstMark | lib/roo/excelx.rb:706 | the first "!$" of `Sheet!$...` is the one after the sheet name, when the name holds none |
| Labels.ParseDefinedNameText | lib/roo/excelx.rb:706-708 | the text `Sheet!$COL$ROW` of a cell splits back into the sheet, the row digits and the column letters |
| Labels.ResolveDefinedNameText | lib/roo/excelx.rb:300-302 | a label defined as `Sheet!$COL$ROW` names that sheet's cell |
| Labels.LabelNamesItsCell | lib/roo/excelx.rb:295-304 | when a name's last definition reads `Sheet!$COL$ROW`, `label` answers that row, that column number and that sheet |
| Comments.StoreRunsLastWins | lib/roo/excelx.rb:695-698 | storing a comment's runs leaves its last run's text at its position and changes nothing else. The sheet's map is created only when there is a run |
| Comments.StoreComments | lib/roo/excelx.rb:692-699 | storing succeeds exactly when every comment's `ref` is a cell reference. Otherwise it fails with a bad reference |
| Comments.StoreCommentsLastWins | lib/roo/excelx.rb:692-699 | after several comments are stored, each position of the sheet holds the last run of the last comment naming it that has a run, or what it held before when there is none |
| Comments.StoreCommentsSheets | lib/roo/excelx.rb:692-699 | the sheet's comment map exists afterwards exactly when it did before or some comment had a run |
| Comments.StoreCommentsOtherSheets | lib/roo/excelx.rb:692-699 | storing a sheet's comments creates no other sheet's map and leaves the other sheets' comments untouched |
| Comments.CommentAt | lib/roo/excelx.rb:693-694 | a comment's position is its `ref` read as a cell reference (nil read as ""), or a bad reference |
| Comments.ReadComments | lib/roo/excelx.rb:687-701 | an unlisted sheet is invalid, and unloaded documents refuse. A sheet without a comments part returns the store unchanged. Otherwise reading succeeds exactly when every comment's `ref` is a cell reference, and then marks the sheet read |
| Comments.SingleCommentStored | lib/roo/excelx.rb:692-698 | a single comment with runs stores its last run's text at its position, and nothing else |
| Comments.SingleCommentKeepsLastRun | lib/roo/excelx.rb:687-701 | reading a sheet whose comments part holds one comment with runs stores that comment's last run at its position, and marks the sheet read |
| Comments.ReadCommentsKeepsLastRuns | lib/roo/excelx.rb:687-701 | reading a sheet's comments part leaves at each position the last run of the last comment naming it that has a run, and what was there before elsewhere |
| A1.LetterToNumber | lib/roo/excelx.rb:301 | a column reference reads as a number exactly when it is a non-empty run of letters; that number is at least 1 and is the run's value in bijective base 26 |
| A1.SplitCoordinate | lib/roo/excelx.rb:612 | a reference that reads gives a column of at least 1 |
| A1.ColumnNumberOfName | lib/roo/excelx.rb:301 | naming a column and reading the name back gives the column |
| A1.ColumnNameOfNumber | lib/roo/excelx.rb:301 | every run of upper-case letters is the name of the column it reads as |
| A1.SplitCellName | lib/roo/excelx.rb:612 | reading back the A1 name of any position gives that position |

## Left out

- Opening the file: zip extraction, temporary directories, URI download and
  file checks (lines 70-99, 713-775). These are I/O. `Sheets.Open` takes the
  parsed parts and the `minimal_load` flag as inputs.
- XPath queries and the streaming `XML::Reader` (lines 414-418, 438, 522).
  These are calls into Nokogiri. `Xml.Named` stands for `//name` and
  `Xml.Step` for a child step. Namespaces are not modelled, and neither are
  whitespace text nodes. In the source, a text node between two `xf` elements
  would add a nil entry to `@cellXfs`.
- `String#to_f`: a parameter of the decoder (`Decoder.toF`). Floating point is
  modelled as exact `real` arithmetic.
- `String#to_i` (`RubyCore.ToI`) models white space, a sign and decimal
  digits. It does not model underscores between digits, nor the `0d` or
  `0D` prefix that Ruby skips in base 10 (`"0d5".to_i` is 5, the model
  gives 0).
- Building the datetime through `strftime`, `split` and `Time#round`
  (lines 471-483, 659). A datetime is modelled as a (day, second) pair
  (`Dates.StampOf`), rounded to the nearest second.
- `dimensions` and the `cell_max` check (lines 96-98, 355-371). They read the
  file and call a `Roo::Base` helper that is not part of this model.
- `method_missing`, `to_s`, `inspect`, and the readers `formulas`, `labels`,
  `comment`, `comment?` and `comments` (lines 133-145, 170-182, 278-291,
  306-353). These are loops and lookups over maps the model already
  describes.
- The default sheet and integer sheet indices. Every reader takes a sheet
  name, and `sheet_index` is modelled for names only.
- `normalize` and `validate_sheet!` of `Roo::Base` are not part of this model.
  Positions are given as (row, column). A sheet is valid when the workbook
  lists it.
- `split_coordinate` and `letter_to_number` of `Roo::Base` are not part of
  this model either. `A1` gives them the minimal meaning of an A1 reference:
  letters, then digits, and nothing else.
- A scan that raises part-way. Ruby keeps the cells written before the
  failure but does not mark the sheet read, so the next reader scans again and
  raises again. `CellStore.ReadCells` and `Comments.ReadComments` return the
  error and keep the store as it was.
- The `@label` memo. `Labels.Label` re-reads the defined names on every call,
  which gives the same answer because the workbook does not change.
- `Rows.CellsForRow`: states only its error kind. What an assembled row holds
  is stated by `Rows.AssembleLastWins` and `Rows.ParseAll`.
- `CellStore.ScanCells`: states only its error kind and that it marks nothing
  read. Its effect on the store is stated by `CellStore.ScanCellsIsStoreAll`.
- `Comments.ReadComments`: reports a workbook opened with `minimal_load` as
  not loaded. The source has no such guard. `@comments_doc` is then nil, and
  `@comments_doc[n]` raises a `NoMethodError` (line 691).
- The numbering of comment parts. The source stores `commentsN.xml` at
  position N - 1 and then drops the missing positions with `compact` (lines
  119, 749). A comments part can then sit at another sheet's index. The model
  takes the comment parts already indexed by sheet, as it takes the file
  extraction.
- `Comments.StoreComments`: its contract states when storing succeeds. What
  it stores is stated by `Comments.StoreCommentsLastWins`,
  `Comments.StoreCommentsSheets` and `Comments.StoreCommentsOtherSheets`.
- `Rows.EachRow`: gives all the rows at once, or the first failing row's
  error, as collecting the enumerator `each_row` returns without a block
  would. The rows a block receives before a row raises are modelled by
  `Rows.EachRowYields`. `Rows.YieldCutIsPrefix` states that rows past a cut
  are never parsed. What the block itself does is not modelled.
- `Rows.EachRowSameInBothModes`: holds only on worksheets whose rows all sit
  in `sheetData`. A `row` element outside `sheetData` is yielded by the
  streamed traversal alone (`Rows.RowOutsideSheetDataIsStreamedOnly`). The
  lemma also assumes that both traversals read the part at the sheet's index. The streamed traversal in the source
  picks its file with the pattern `sheet([N]+).xml$`, where N is the index
  plus one (line 768). That is a character class, not a number. For the
  tenth sheet it is `[10]+`, which also matches `sheet1.xml`. The first
  matching entry of the zip file is read, which may be another sheet. Zip
  entry order is not modelled.
- `Rows.LoadedSlots` and `Rows.StreamedSlots`: report an unlisted sheet name
  as an invalid sheet. In the source `sheet_index` gives nil. The loaded
  traversal then raises a `TypeError` from `@sheet_doc[nil]` (line 436), and
  the streamed one raises a `NoMethodError` from `nil + 1` (line 768).
- lib/roo/excel.rb, the reader for the older binary format, is not part of
  this model.

=== FILE: a1.dfy ===
/** A1 cell references ("B4", "aa10"). The reader relies on two helpers of
    `Roo::Base`, `split_coordinate` and `letter_to_number`, whose code is not
    part of this model; they are given the minimal A1 meaning here: a run of
    letters naming the column in bijective base 26, then the row in decimal. */
module A1 {
  import opened Common
  import opened RubyCore

  /** A 1-based (row, column) position. */
  datatype Coord = Coord(row: nat, col: nat)

  predicate IsLetter(c: char) {
    'A' <= c <= 'Z' || 'a' <= c <= 'z'
  }

  predicate IsUpper(c: char) {
    'A' <= c <= 'Z'
  }

  predicate AllLetters(s: string) {
    forall i :: 0 <= i < |s| ==> IsLetter(s[i])
  }

  predicate AllUpper(s: string) {
    forall i :: 0 <= i < |s| ==> IsUpper(s[i])
  }

  /** 'A' and 'a' are 1, ..., 'Z' and 'z' are 26. */
  function LetterValue(c: char): (v: nat)
    requires IsLetter(c)
    ensures 1 <= v <= 26
  {
    if IsUpper(c) then c as int - 'A' as int + 1 else c as int - 'a' as int + 1
  }

  function UpperLetter(v: nat): (c: char)
    requires 1 <= v <= 26
    ensures IsUpper(c) && LetterValue(c) == v
  {
    ('A' as int + v - 1) as char
  }

  /** The column number a run of letters names ("A" = 1, "Z" = 26, "AA" = 27). */
  function ColumnNumber(letters: string): nat
    requires AllLetters(letters)
  {
    if |letters| == 0 then 0
    else ColumnNumber(letters[..|letters| - 1]) * 26 + LetterValue(letters[|letters| - 1])
  }

  /** The upper-case letters naming column `n`. */
  function ColumnName(n: nat): (s: string)
    requires n >= 1
    ensures |s| > 0 && AllUpper(s) && AllLetters(s)
  {
    if n <= 26 then [UpperLetter(n)]
    else ColumnName((n - 1) / 26) + [UpperLetter((n - 1) % 26 + 1)]
  }

  /** Naming a column and reading the name back gives the column. */
  lemma {:induction false} ColumnNumberOfName(n: nat)
    requires n >= 1
    ensures ColumnNumber(ColumnName(n)) == n
  {
    if n > 26 {
      var s := ColumnName(n);
      assert s[..|s| - 1] == ColumnName((n - 1) / 26);
      ColumnNumberOfName((n - 1) / 26);
    }
  }

  lemma {:induction false} ColumnNumberPositive(s: string)
    requires |s| > 0 && AllLetters(s)
    ensures ColumnNumber(s) >= 1
  {
  }

  /** Every non-empty run of upper-case letters is the name of its column:
      the naming is a bijection between columns and such runs. */
  lemma {:induction false} ColumnNameOfNumber(s: string)
    requires |s| > 0 && AllUpper(s)
    ensures AllLetters(s) && ColumnName(ColumnNumber(s)) == s
  {
    var p := s[..|s| - 1];
    var v := LetterValue(s[|s| - 1]);
    var n := ColumnNumber(s);
    assert n == ColumnNumber(p) * 26 + v;
    assert (n - 1) / 26 == ColumnNumber(p) && (n - 1) % 26 + 1 == v;
    assert UpperLetter(v) == s[|s| - 1];
    if |p| == 0 {
      assert s == [s[0]];
    } else {
      ColumnNumberPositive(p);
      ColumnNameOfNumber(p);
      assert s == p + [s[|s| - 1]];
    }
  }

  /** The longest prefix of `s` made of letters. */
  function LetterRun(s: string): (r: string)
    ensures r <= s && AllLetters(r)
    ensures |r| < |s| ==> !IsLetter(s[|r|])
  {
    if |s| > 0 && IsLetter(s[0]) then [s[0]] + LetterRun(s[1..]) else []
  }

  /** `letter_to_number`: the column a run of letters names. */
  function LetterToNumber(letters: Option<string>): (r: Result<nat>)
    ensures r.Ok? <==> letters.Some? && |letters.value| > 0 && AllLetters(letters.value)
    ensures r.Ok? ==> r.value >= 1 && r.value == ColumnNumber(letters.value)
  {
    match letters
    case Some(s) =>
      if |s| > 0 && AllLetters(s) then
        ColumnNumberPositive(s);
        Ok(ColumnNumber(s))
      else Err(BadColumn(letters))
    case None => Err(BadColumn(letters))
  }

  /** `split_coordinate`: a reference made of letters then digits, and
      nothing else, names (row, column). */
  function SplitCoordinate(ref: Option<string>): (r: Result<Coord>)
    ensures r.Ok? ==> r.value.col >= 1
  {
    match ref
    case None => Err(BadReference(ref))
    case Some(s) =>
      var letters := LetterRun(s);
      var digits := s[|letters|..];
      if |letters| > 0 && |digits| > 0 && AllDigits(digits) then
        ColumnNumberPositive(letters);
        Ok(Coord(DigitsValue(digits), ColumnNumber(letters)))
      else Err(BadReference(ref))
  }

  /** The A1 name of a position. */
  function CellName(c: Coord): string
    requires c.col >= 1
  {
    ColumnName(c.col) + NatToString(c.row)
  }

  lemma {:induction false} LetterRunOfLetters(a: string, d: string)
    requires AllLetters(a)
    requires |d| == 0 || !IsLetter(d[0])
    ensures LetterRun(a + d) == a
  {
    if |a| > 0 {
      assert (a + d)[1..] == a[1..] + d;
      LetterRunOfLetters(a[1..], d);
    }
  }

  /** Reading back the A1 name of any position gives the position. */
  lemma SplitCellName(c: Coord)
    requires c.col >= 1
    ensures SplitCoordinate(Some(CellName(c))) == Ok(c)
  {
    var letters := ColumnName(c.col);
    var digits := NatToString(c.row);
    var s := letters + digits;
    LetterRunOfLetters(letters, digits);
    assert s[|letters|..] == digits;
    ColumnNumberOfName(c.col);
    DigitsValueOfNatToString(c.row);
  }
}

=== FILE: cell_decoder.dfy ===
/** `parse_cell`: one `c` element of a worksheet (section 18.3.1.4 of ECMA-376
    Part 1) decoded into a typed cell. The `t` attribute (ST_CellType,
    section 18.18.11) or, failing that, the style's number format gives the
    declared type; the children are then visited in order: an `f` records
    the formula, and the first `v`, or `is` with a `t` inside, decides the
    cell. A cell with neither is empty. */
module CellDecoder {
  import opened Common
  import opened RubyCore
  import opened Xml
  import opened A1
  import opened NumberFormat
  import opened Styles
  import opened Dates

  /** The decoded value of a cell. `Whole` is a numeric value stored as an
      Integer because it has no fractional part. */
  datatype CellValue =
    | NoValue
    | Text(text: string)
    | Whole(n: int)
    | Number(x: real)
    | DateValue(day: int)
    | TimeValue(seconds: real)
    | DateTimeValue(stamp: Stamp)

  /** `excelx_type`: `:string`, or `[:numeric_or_formula, format code]`. */
  datatype ExcelxType = XString | NumericOrFormula(format: string)

  /** `value_type` while a cell is decoded: the shared and inline-string
      readings of `t`, or a cell type. */
  datatype ValueType = Shared | InlineStr | Typed(t: CellType)

  /** `Roo::Excelx::Cell`: the position, the value, and the facts stored beside
      it. `sheet` is nil for an empty cell. */
  datatype Cell = Cell(
    coord: Coord,
    value: CellValue,
    cellType: Option<CellType>,
    formula: Option<string>,
    excelxType: Option<ExcelxType>,
    excelxValue: Option<string>,
    style: Option<int>,
    sheet: Option<string>)

  /** What decoding needs from the workbook: the shared-string table, the
      styles, the base date (a day offset) and `String#to_f`. */
  datatype Decoder = Decoder(shared: seq<string>, styles: Styles, baseDate: int, toF: string -> real)

  /** What is known of a cell before its children are visited. */
  datatype Context = Context(declared: ValueType, format: Option<string>, at: Coord, style: int, sheet: Option<string>)

  /** `Cell.new(coordinate, nil)`: nothing but the position. */
  function EmptyCell(at: Coord): Cell {
    Cell(at, NoValue, None, None, None, None, None, None)
  }

  /** A `t` attribute that the decoder does not recognise, so that the type
      comes from the style's number format. */
  predicate NeedsFormat(t: Option<string>) {
    t != Some("s") && t != Some("b") && t != Some("str") && t != Some("inlineStr")
  }

  /** The declared type and the format code consulted for it; only a cell
      that needs its format consults the styles, which must then exist. */
  function Declared(d: Decoder, t: Option<string>, s: int): (r: Result<(ValueType, Option<string>)>)
    ensures r.Err? <==> NeedsFormat(t) && d.styles.formats.None?
    ensures r.Err? ==> r.error == MissingStyles
    ensures t == Some("s") ==> r == Ok((Shared, None))
    ensures t == Some("b") ==> r == Ok((Typed(Boolean), None))
    ensures t == Some("str") ==> r == Ok((Typed(String), None))
    ensures t == Some("inlineStr") ==> r == Ok((InlineStr, None))
    ensures r.Ok? && NeedsFormat(t) ==>
      r.value.1 == Attribute2Format(d.styles, s).value && r.value.0 == Typed(ToType(r.value.1))
  {
    if t == Some("s") then Ok((Shared, None))
    else if t == Some("b") then Ok((Typed(Boolean), None))
    else if t == Some("str") then Ok((Typed(String), None))
    else if t == Some("inlineStr") then Ok((InlineStr, None))
    else
      var format :- Attribute2Format(d.styles, s);
      Ok((Typed(ToType(format)), format))
  }

  /** The whole-part test of the reclassification: more than a millionth of
      a day after midnight. */
  predicate HasTimeOfDay(f: real) {
    AbsReal(f - f.Floor as real) > 0.000001
  }

  /** A time or date-time serial of at least one day becomes a date-time when
      it has a time of day and a date otherwise; anything else is kept. */
  function Reclassify(declared: ValueType, f: real): (r: ValueType)
    ensures declared != Typed(Time) && declared != Typed(DateTime) ==> r == declared
    ensures f < 1.0 ==> r == declared
    ensures (declared == Typed(Time) || declared == Typed(DateTime)) && f >= 1.0 ==>
      (r == Typed(DateTime) <==> HasTimeOfDay(f)) && (r == Typed(Date) <==> !HasTimeOfDay(f))
  {
    if (declared == Typed(Time) || declared == Typed(DateTime)) && f >= 1.0 then
      (if HasTimeOfDay(f) then Typed(DateTime) else Typed(Date))
    else declared
  }

  /** A plain number: an Integer when it is whole, else the number itself. */
  function PlainNumber(f: real): (v: CellValue)
    ensures v.Whole? <==> f.Floor as real == f
    ensures v.Whole? ==> v.n as real == f
    ensures v.Number? ==> v.x == f
  {
    if f.Floor as real == f then Whole(f.Floor) else Number(f)
  }

  /** The value, type and excelx type of a `v` child's text `v`, once the
      declared type has been reclassified. */
  function Interpret(d: Decoder, vt: ValueType, format: Option<string>, v: string): (CellValue, CellType, ExcelxType) {
    var f := d.toF(v);
    var numeric := NumericOrFormula(NilToS(format));
    match vt
    case Shared =>
      var entry := match RubyAt(d.shared, ToI(v)) case Some(x) => Text(x) case None => NoValue;
      (entry, String, XString)
    case Typed(Boolean) => (Text(if ToI(v) == 1 then "TRUE" else "FALSE"), Boolean, numeric)
    case Typed(Date) => (DateValue(d.baseDate + ToI(v)), Date, numeric)
    case Typed(Time) => (TimeValue(f * 86400.0), Time, numeric)
    case Typed(DateTime) => (DateTimeValue(StampOf(d.baseDate, f)), DateTime, numeric)
    case Typed(Formula) => (Number(f), Formula, numeric)
    case Typed(String) => (Text(v), String, XString)
    case Typed(Percentage) => (Number(f), Percentage, numeric)
    case _ => (PlainNumber(f), Float, numeric)
  }

  /** The cell a `v` child decides. */
  function ValueCell(d: Decoder, ctx: Context, formula: Option<string>, v: string): Cell {
    var vt := Reclassify(ctx.declared, d.toF(v));
    var (value, ty, xt) := Interpret(d, vt, ctx.format, v);
    Cell(ctx.at, value, Some(ty), formula, Some(xt), Some(v), Some(ctx.style), ctx.sheet)
  }

  /** The cell an `is` child decides: the text of its first `t`, as a string. */
  function InlineCell(ctx: Context, formula: Option<string>, text: string): Cell {
    Cell(ctx.at, Text(text), Some(String), formula, Some(XString), Some(text), Some(ctx.style), ctx.sheet)
  }

  /** Visits the children in order, carrying the formula seen so far. */
  function Scan(d: Decoder, ctx: Context, es: seq<Element>, formula: Option<string>): Cell
    decreases |es|
  {
    if |es| == 0 then EmptyCell(ctx.at)
    else
      var e := es[0];
      if e.name == "is" && |ChildrenNamed(e, "t")| > 0 then InlineCell(ctx, formula, ChildrenNamed(e, "t")[0].text)
      else if e.name == "f" then Scan(d, ctx, es[1..], Some(e.text))
      else if e.name == "v" then ValueCell(d, ctx, formula, e.text)
      else Scan(d, ctx, es[1..], formula)
  }

  /** The style index, the declared type and the position of a `c` element.
      The type is settled before the reference is read, so a missing styles
      part is reported first. */
  function CellContext(d: Decoder, c: Element, sheet: Option<string>): (r: Result<Context>)
    ensures r.Ok? <==> Declared(d, Attr(c, "t"), NilToI(Attr(c, "s"))).Ok? && SplitCoordinate(Attr(c, "r")).Ok?
    ensures Declared(d, Attr(c, "t"), NilToI(Attr(c, "s"))).Err? ==> r == Err(MissingStyles)
    ensures Declared(d, Attr(c, "t"), NilToI(Attr(c, "s"))).Ok? && SplitCoordinate(Attr(c, "r")).Err? ==>
      r == Err(SplitCoordinate(Attr(c, "r")).error)
    ensures r.Ok? ==> r.value.style == NilToI(Attr(c, "s")) && r.value.sheet == sheet
    ensures r.Ok? ==> Declared(d, Attr(c, "t"), r.value.style) == Ok((r.value.declared, r.value.format))
    ensures r.Ok? ==> Ok(r.value.at) == SplitCoordinate(Attr(c, "r"))
  {
    var s := NilToI(Attr(c, "s"));
    var declared :- Declared(d, Attr(c, "t"), s);
    var at :- SplitCoordinate(Attr(c, "r"));
    Ok(Context(declared.0, declared.1, at, s, sheet))
  }

  /** The conditions decoding a cell can raise. */
  predicate DecodeError(e: Error) {
    e == MissingStyles || e.BadReference?
  }

  /** `parse_cell`. */
  function ParseCell(d: Decoder, c: Element, sheet: Option<string>): (r: Result<Cell>)
    ensures r.Err? <==> (NeedsFormat(Attr(c, "t")) && d.styles.formats.None?) || SplitCoordinate(Attr(c, "r")).Err?
    ensures r.Err? && NeedsFormat(Attr(c, "t")) && d.styles.formats.None? ==> r.error == MissingStyles
    ensures r.Err? ==> DecodeError(r.error)
    ensures r.Ok? ==> Ok(r.value.coord) == SplitCoordinate(Attr(c, "r"))
  {
    var ctx :- CellContext(d, c, sheet);
    ScanKeepsPosition(d, ctx, c.children, None);
    Ok(Scan(d, ctx, c.children, None))
  }

  lemma {:induction false} ScanKeepsPosition(d: Decoder, ctx: Context, es: seq<Element>, formula: Option<string>)
    ensures Scan(d, ctx, es, formula).coord == ctx.at
    decreases |es|
  {
    if |es| > 0 && es[0].name != "v" && !(es[0].name == "is" && |ChildrenNamed(es[0], "t")| > 0) {
      ScanKeepsPosition(d, ctx, es[1..], if es[0].name == "f" then Some(es[0].text) else formula);
    }
  }

  // ---------------------------------------------------------------- reading a cell directly

  /** A child that decides the cell: a `v`, or an `is` holding a `t`. */
  predicate Decisive(e: Element) {
    e.name == "v" || (e.name == "is" && |ChildrenNamed(e, "t")| > 0)
  }

  /** The position of the first deciding child. */
  function FirstDecisive(es: seq<Element>): (r: Option<nat>)
    ensures r.Some? ==> r.value < |es| && Decisive(es[r.value])
    ensures r.Some? ==> forall j :: 0 <= j < r.value ==> !Decisive(es[j])
    ensures r.None? ==> forall j :: 0 <= j < |es| ==> !Decisive(es[j])
  {
    if |es| == 0 then None
    else if Decisive(es[0]) then Some(0)
    else match FirstDecisive(es[1..])
      case None => None
      case Some(k) => Some(k + 1)
  }

  /** The text of the last `f` element of `es`, if any. */
  function LastFormula(es: seq<Element>): Option<string> {
    if |es| == 0 then None
    else if es[|es| - 1].name == "f" then Some(es[|es| - 1].text)
    else LastFormula(es[..|es| - 1])
  }

  /** The cell decided by the deciding child `e`, with formula `formula`. */
  function DecidedBy(d: Decoder, ctx: Context, formula: Option<string>, e: Element): Cell
    requires Decisive(e)
  {
    if e.name == "v" then ValueCell(d, ctx, formula, e.text)
    else InlineCell(ctx, formula, ChildrenNamed(e, "t")[0].text)
  }

  /** A cell read directly from its children: the first deciding child
      decides it, with the last `f` before that child as the formula; with no
      deciding child the cell is empty. */
  function ReferenceCell(d: Decoder, ctx: Context, es: seq<Element>): Cell {
    match FirstDecisive(es)
    case None => EmptyCell(ctx.at)
    case Some(k) => DecidedBy(d, ctx, LastFormula(es[..k]), es[k])
  }

  lemma {:induction false} LastFormulaCons(x: Element, ys: seq<Element>)
    ensures LastFormula([x] + ys) == OrElse(LastFormula(ys), if x.name == "f" then Some(x.text) else None)
    decreases |ys|
  {
    var zs := [x] + ys;
    if |ys| == 0 {
      assert zs[..0] == [];
    } else {
      assert zs[|zs| - 1] == ys[|ys| - 1];
      assert zs[..|zs| - 1] == [x] + ys[..|ys| - 1];
      LastFormulaCons(x, ys[..|ys| - 1]);
    }
  }

  lemma {:induction false} ScanIsReference(d: Decoder, ctx: Context, es: seq<Element>, formula: Option<string>)
    ensures Scan(d, ctx, es, formula) ==
      match FirstDecisive(es)
      case None => EmptyCell(ctx.at)
      case Some(k) => DecidedBy(d, ctx, OrElse(LastFormula(es[..k]), formula), es[k])
    decreases |es|
  {
    if |es| > 0 && !Decisive(es[0]) {
      var e := es[0];
      var next := if e.name == "f" then Some(e.text) else formula;
      ScanIsReference(d, ctx, es[1..], next);
      match FirstDecisive(es[1..])
      case None =>
      case Some(k) =>
        assert es[..k + 1] == [e] + es[1..][..k];
        LastFormulaCons(e, es[1..][..k]);
    } else if |es| > 0 {
      assert es[..0] == [];
    }
  }

  /** A cell whose context can be read is the cell read directly from its
      children. */
  lemma ParseCellIsReference(d: Decoder, c: Element, sheet: Option<string>)
    requires CellContext(d, c, sheet).Ok?
    ensures ParseCell(d, c, sheet) == Ok(ReferenceCell(d, CellContext(d, c, sheet).value, c.children))
  {
    var ctx := CellContext(d, c, sheet).value;
    ScanIsReference(d, ctx, c.children, None);
    match FirstDecisive(c.children)
    case None =>
    case Some(k) =>
      assert OrElse(LastFormula(c.children[..k]), None) == LastFormula(c.children[..k]);
  }

  // ---------------------------------------------------------------- what each kind of cell decodes to

  /** A cell decided by a `v` child is that child's value cell. */
  lemma DecidedByValue(d: Decoder, c: Element, sheet: Option<string>, k: nat)
    requires CellContext(d, c, sheet).Ok?
    requires FirstDecisive(c.children) == Some(k) && c.children[k].name == "v"
    ensures ParseCell(d, c, sheet) ==
      Ok(ValueCell(d, CellContext(d, c, sheet).value, LastFormula(c.children[..k]), c.children[k].text))
  {
    ParseCellIsReference(d, c, sheet);
  }

  /** `t="s"`: the shared string at the index the `v` text reads as (nil
      outside the table), typed as a string. */
  lemma SharedStringCell(d: Decoder, c: Element, sheet: Option<string>, k: nat)
    requires CellContext(d, c, sheet).Ok?
    requires Attr(c, "t") == Some("s")
    requires FirstDecisive(c.children) == Some(k) && c.children[k].name == "v"
    ensures var r := ParseCell(d, c, sheet); var v := c.children[k].text;
      && r.Ok?
      && r.value.value == (match RubyAt(d.shared, ToI(v)) case Some(x) => Text(x) case None => NoValue)
      && r.value.cellType == Some(String)
      && r.value.excelxType == Some(XString)
      && r.value.excelxValue == Some(v)
  {
    DecidedByValue(d, c, sheet, k);
  }

  /** `t="b"`: "TRUE" exactly when the `v` text reads as 1, else "FALSE". */
  lemma BooleanCell(d: Decoder, c: Element, sheet: Option<string>, k: nat)
    requires CellContext(d, c, sheet).Ok?
    requires Attr(c, "t") == Some("b")
    requires FirstDecisive(c.children) == Some(k) && c.children[k].name == "v"
    ensures var r := ParseCell(d, c, sheet); var v := c.children[k].text;
      && r.Ok?
      && (r.value.value == Text("TRUE") <==> ToI(v) == 1)
      && (r.value.value == Text("FALSE") <==> ToI(v) != 1)
      && r.value.cellType == Some(Boolean)
      && r.value.excelxType == Some(NumericOrFormula(""))
  {
    DecidedByValue(d, c, sheet, k);
  }

  /** `t="str"`: the `v` text itself, typed as a string. */
  lemma FormulaStringCell(d: Decoder, c: Element, sheet: Option<string>, k: nat)
    requires CellContext(d, c, sheet).Ok?
    requires Attr(c, "t") == Some("str")
    requires FirstDecisive(c.children) == Some(k) && c.children[k].name == "v"
    ensures var r := ParseCell(d, c, sheet); var v := c.children[k].text;
      && r.Ok?
      && r.value.value == Text(v)
      && r.value.cellType == Some(String)
      && r.value.excelxType == Some(XString)
  {
    DecidedByValue(d, c, sheet, k);
  }

  /** An `is` child holding a `t` decides the cell as the text of its first
      `t`, whatever the `t` attribute says. */
  lemma InlineStringCell(d: Decoder, c: Element, sheet: Option<string>, k: nat)
    requires CellContext(d, c, sheet).Ok?
    requires FirstDecisive(c.children) == Some(k) && c.children[k].name == "is"
    ensures var r := ParseCell(d, c, sheet); var text := ChildrenNamed(c.children[k], "t")[0].text;
      && r.Ok?
      && r.value.value == Text(text)
      && r.value.cellType == Some(String)
      && r.value.excelxType == Some(XString)
      && r.value.excelxValue == Some(text)
  {
    ParseCellIsReference(d, c, sheet);
  }

  /** A cell whose format reads as a time or date-time and whose serial is at
      least one day becomes a date-time when it has a time of day, and a date
      (base date plus the whole days the text reads as) otherwise. */
  lemma ReclassifiedCell(d: Decoder, c: Element, sheet: Option<string>, k: nat)
    requires CellContext(d, c, sheet).Ok?
    requires NeedsFormat(Attr(c, "t"))
    requires CellContext(d, c, sheet).value.declared in {Typed(Time), Typed(DateTime)}
    requires FirstDecisive(c.children) == Some(k) && c.children[k].name == "v"
    requires d.toF(c.children[k].text) >= 1.0
    ensures var r := ParseCell(d, c, sheet); var v := c.children[k].text; var f := d.toF(v);
      && r.Ok?
      && (HasTimeOfDay(f) ==> r.value.cellType == Some(DateTime) && r.value.value == DateTimeValue(StampOf(d.baseDate, f)))
      && (!HasTimeOfDay(f) ==> r.value.cellType == Some(Date) && r.value.value == DateValue(d.baseDate + ToI(v)))
  {
    var ctx := CellContext(d, c, sheet).value;
    var formula := LastFormula(c.children[..k]);
    var v := c.children[k].text;
    DecidedByValue(d, c, sheet, k);
    assert ctx.declared == Typed(Time) || ctx.declared == Typed(DateTime);
    ReclassifiedValue(d, ctx, formula, v);
    assert ParseCell(d, c, sheet) == Ok(ValueCell(d, ctx, formula, v));
  }

  /** The value cell of a time or date-time serial of at least one day. */
  lemma ReclassifiedValue(d: Decoder, ctx: Context, formula: Option<string>, v: string)
    requires ctx.declared == Typed(Time) || ctx.declared == Typed(DateTime)
    requires d.toF(v) >= 1.0
    ensures var cell := ValueCell(d, ctx, formula, v); var f := d.toF(v);
      && (HasTimeOfDay(f) ==> cell.cellType == Some(DateTime) && cell.value == DateTimeValue(StampOf(d.baseDate, f)))
      && (!HasTimeOfDay(f) ==> cell.cellType == Some(Date) && cell.value == DateValue(d.baseDate + ToI(v)))
  {
    if HasTimeOfDay(d.toF(v)) {
      assert Reclassify(ctx.declared, d.toF(v)) == Typed(DateTime);
    } else {
      assert Reclassify(ctx.declared, d.toF(v)) == Typed(Date);
    }
  }

  /** A serial below one day keeps its time type: seconds since midnight. */
  lemma TimeOfDayCell(d: Decoder, c: Element, sheet: Option<string>, k: nat)
    requires CellContext(d, c, sheet).Ok?
    requires CellContext(d, c, sheet).value.declared == Typed(Time)
    requires FirstDecisive(c.children) == Some(k) && c.children[k].name == "v"
    requires d.toF(c.children[k].text) < 1.0
    ensures var r := ParseCell(d, c, sheet); var f := d.toF(c.children[k].text);
      && r.Ok?
      && r.value.cellType == Some(Time)
      && r.value.value == TimeValue(f * 86400.0)
  {
    DecidedByValue(d, c, sheet, k);
  }

  /** A cell whose format reads as a date is never reclassified: it is the
      base date plus the whole days its text reads as. */
  lemma DateCell(d: Decoder, c: Element, sheet: Option<string>, k: nat)
    requires CellContext(d, c, sheet).Ok?
    requires CellContext(d, c, sheet).value.declared == Typed(Date)
    requires FirstDecisive(c.children) == Some(k) && c.children[k].name == "v"
    ensures var r := ParseCell(d, c, sheet); var v := c.children[k].text;
      && r.Ok?
      && r.value.cellType == Some(Date)
      && r.value.value == DateValue(d.baseDate + ToI(v))
  {
    DecidedByValue(d, c, sheet, k);
  }

  /** A plain number is typed Float and stored as an Integer exactly when it
      is whole. */
  lemma PlainNumberCell(d: Decoder, c: Element, sheet: Option<string>, k: nat)
    requires CellContext(d, c, sheet).Ok?
    requires CellContext(d, c, sheet).value.declared == Typed(Float)
    requires FirstDecisive(c.children) == Some(k) && c.children[k].name == "v"
    ensures var r := ParseCell(d, c, sheet); var f := d.toF(c.children[k].text);
      && r.Ok?
      && r.value.cellType == Some(Float)
      && (f.Floor as real == f ==> r.value.value == Whole(f.Floor))
      && (f.Floor as real != f ==> r.value.value == Number(f))
  {
    DecidedByValue(d, c, sheet, k);
  }

  /** A cell with no `v` and no `is` holding a `t` has no value, no type, no
      formula and no sheet, whatever `f` children it has. */
  lemma EmptyCellHasNothing(d: Decoder, c: Element, sheet: Option<string>)
    requires CellContext(d, c, sheet).Ok?
    requires forall j :: 0 <= j < |c.children| ==> !Decisive(c.children[j])
    ensures var r := ParseCell(d, c, sheet);
      && r.Ok?
      && r.value.value == NoValue
      && r.value.cellType.None?
      && r.value.formula.None?
      && r.value.sheet.None?
  {
    ParseCellIsReference(d, c, sheet);
  }

  /** A decided cell records the last `f` before its deciding child as its
      formula, and the style index and sheet it was read with. */
  lemma FormulaBeforeDecision(d: Decoder, c: Element, sheet: Option<string>, k: nat)
    requires CellContext(d, c, sheet).Ok?
    requires FirstDecisive(c.children) == Some(k)
    ensures var r := ParseCell(d, c, sheet);
      && r.Ok?
      && r.value.formula == LastFormula(c.children[..k])
      && r.value.style == Some(NilToI(Attr(c, "s")))
      && r.value.sheet == sheet
  {
    ParseCellIsReference(d, c, sheet);
  }
}

=== FILE: cell_store.dfy ===
/** The per-sheet cell store (`read_cells`, `set_cell_values`) and the
    readers built on it (`cell`, `celltype`, `formula`, `excelx_type`,
    `excelx_value`, `excelx_format`, `font`). A sheet is scanned once; the
    decoded cells are kept in maps keyed by the cell's sheet and position,
    and a formula is written only when the cell has one. */
module CellStore {
  import opened Common
  import opened RubyCore
  import opened Xml
  import opened A1
  import opened NumberFormat
  import opened Styles
  import opened CellDecoder
  import opened Sheets
  import opened Rows

  /** What `set_cell_values` writes beside the formula: one entry of each of
      `@cell`, `@cell_type`, `@excelx_type`, `@excelx_value` and
      `@s_attribute`. */
  datatype Stored = Stored(
    value: CellValue,
    cellType: Option<CellType>,
    excelxType: Option<ExcelxType>,
    excelxValue: Option<string>,
    style: Option<int>)

  /** The parallel maps, keyed by sheet (nil for an empty cell) and then by
      position, and the sheets already scanned. */
  datatype Store = Store(
    cells: map<Option<string>, map<Coord, Stored>>,
    formulas: map<Option<string>, map<Coord, string>>,
    cellsRead: set<string>)

  /** A store before any sheet was read. */
  function EmptyStore(): Store {
    Store(map[], map[], {})
  }

  /** A reader's answer together with the store it leaves behind. */
  datatype Answer<T> = Answer(store: Store, value: T)

  /** `m[sheet][key]`, nil when either level is missing. */
  function Get<V>(m: map<Option<string>, map<Coord, V>>, sheet: Option<string>, key: Coord): Option<V> {
    if sheet in m && key in m[sheet] then Some(m[sheet][key]) else None
  }

  /** Every sheet that has a cell map also has a formula map, and back. */
  predicate Coherent(st: Store) {
    st.cells.Keys == st.formulas.Keys
  }

  function StoredOf(c: Cell): Stored {
    Stored(c.value, c.cellType, c.excelxType, c.excelxValue, c.style)
  }

  // ---------------------------------------------------------------- set_cell_values

  /** `set_cell_values`: every map of the cell's sheet is created if needed
      and written at the cell's position, except that the formula map is
      written only when the cell has a formula. */
  function SetCellValues(st: Store, c: Cell): (r: Store)
    ensures r.cells.Keys == st.cells.Keys + {c.sheet}
    ensures r.formulas.Keys == st.formulas.Keys + {c.sheet}
    ensures Coherent(st) ==> Coherent(r)
    ensures forall s, k :: Get(r.cells, s, k) == if s == c.sheet && k == c.coord then Some(StoredOf(c)) else Get(st.cells, s, k)
    ensures forall s, k ::
      Get(r.formulas, s, k) == if s == c.sheet && k == c.coord && c.formula.Some? then c.formula else Get(st.formulas, s, k)
    ensures r.cellsRead == st.cellsRead
  {
    var cs := if c.sheet in st.cells then st.cells[c.sheet] else map[];
    var fs := if c.sheet in st.formulas then st.formulas[c.sheet] else map[];
    var fs' := if c.formula.Some? then fs[c.coord := c.formula.value] else fs;
    Store(st.cells[c.sheet := cs[c.coord := StoredOf(c)]], st.formulas[c.sheet := fs'], st.cellsRead)
  }

  /** A later write without a formula keeps the formula an earlier write left
      at the same position, while every other fact is overwritten. */
  lemma FormulaSurvivesRewrite(st: Store, first: Cell, second: Cell)
    requires first.sheet == second.sheet && first.coord == second.coord
    requires first.formula.Some? && second.formula.None?
    ensures var r := SetCellValues(SetCellValues(st, first), second);
      && Get(r.formulas, second.sheet, second.coord) == first.formula
      && Get(r.cells, second.sheet, second.coord) == Some(StoredOf(second))
  {
  }

  /** The cells written one after another, in order. */
  function StoreAll(st: Store, cs: seq<Cell>): Store
    decreases |cs|
  {
    if |cs| == 0 then st else StoreAll(SetCellValues(st, cs[0]), cs[1..])
  }

  /** The last of `cs` at sheet `s` and position `k`. */
  function LastAt(cs: seq<Cell>, s: Option<string>, k: Coord): (r: Option<Cell>)
    ensures r.Some? ==> r.value in cs && r.value.sheet == s && r.value.coord == k
    ensures r.None? ==> forall i :: 0 <= i < |cs| ==> !(cs[i].sheet == s && cs[i].coord == k)
    decreases |cs|
  {
    if |cs| == 0 then None
    else match LastAt(cs[1..], s, k)
      case Some(c) => Some(c)
      case None => if cs[0].sheet == s && cs[0].coord == k then Some(cs[0]) else None
  }

  /** The formula of the last of `cs` at sheet `s` and position `k` that has one. */
  function LastFormulaAt(cs: seq<Cell>, s: Option<string>, k: Coord): Option<string>
    decreases |cs|
  {
    if |cs| == 0 then None
    else match LastFormulaAt(cs[1..], s, k)
      case Some(f) => Some(f)
      case None => if cs[0].sheet == s && cs[0].coord == k then cs[0].formula else None
  }

  /** The sheet keys of `cs`, nil for an empty cell. */
  function SheetsOf(cs: seq<Cell>): (r: set<Option<string>>)
    ensures forall i :: 0 <= i < |cs| ==> cs[i].sheet in r
    ensures forall s :: s in r ==> exists i :: 0 <= i < |cs| && cs[i].sheet == s
    decreases |cs|
  {
    if |cs| == 0 then {} else {cs[0].sheet} + SheetsOf(cs[1..])
  }

  /** What a position holds after `cs` were written over `st`. */
  function LastStored(st: Store, cs: seq<Cell>, s: Option<string>, k: Coord): Option<Stored> {
    match LastAt(cs, s, k)
    case None => Get(st.cells, s, k)
    case Some(c) => Some(StoredOf(c))
  }

  /** After a run of writes, each position holds the last cell written there;
      every position no cell was written to keeps what it had. */
  lemma {:induction false} StoreAllLastWins(st: Store, cs: seq<Cell>)
    ensures forall s, k :: Get(StoreAll(st, cs).cells, s, k) == LastStored(st, cs, s, k)
    decreases |cs|
  {
    if |cs| > 0 {
      StoreAllLastWins(SetCellValues(st, cs[0]), cs[1..]);
    }
  }

  /** After a run of writes, the formula at each position is the last formula
      written there, or the one it had when no write there had a formula. */
  lemma {:induction false} StoreAllFormulas(st: Store, cs: seq<Cell>)
    ensures forall s, k :: Get(StoreAll(st, cs).formulas, s, k) == OrElse(LastFormulaAt(cs, s, k), Get(st.formulas, s, k))
    decreases |cs|
  {
    if |cs| > 0 {
      StoreAllFormulas(SetCellValues(st, cs[0]), cs[1..]);
    }
  }

  /** A run of writes creates the maps of every sheet written to and no
      other, keeps the two kinds of map in step, and marks nothing read. */
  lemma {:induction false} StoreAllSheets(st: Store, cs: seq<Cell>)
    ensures StoreAll(st, cs).cells.Keys == st.cells.Keys + SheetsOf(cs)
    ensures StoreAll(st, cs).cellsRead == st.cellsRead
    ensures Coherent(st) ==> Coherent(StoreAll(st, cs))
    decreases |cs|
  {
    if |cs| > 0 {
      StoreAllSheets(SetCellValues(st, cs[0]), cs[1..]);
    }
  }

  // ---------------------------------------------------------------- read_cells

  /** The `c` elements a loaded sheet scans: `/worksheet/sheetData/row/c`. */
  function CellElements(doc: Element): seq<Element> {
    Step(LoadedRows(doc), "c")
  }

  /** Each element parsed and written in turn; the first element that fails
      to parse raises. */
  function ScanCells(d: Decoder, st: Store, es: seq<Element>, sheet: Option<string>): (r: Result<Store>)
    ensures r.Err? ==> DecodeError(r.error)
    ensures r.Ok? ==> r.value.cellsRead == st.cellsRead
    ensures r.Ok? && Coherent(st) ==> Coherent(r.value)
    decreases |es|
  {
    if |es| == 0 then Ok(st)
    else
      var c :- ParseCell(d, es[0], sheet);
      ScanCells(d, SetCellValues(st, c), es[1..], sheet)
  }

  /** Scanning is parsing every element and then writing the cells in order;
      it fails exactly when some element fails to parse, with that error. */
  lemma {:induction false} ScanCellsIsStoreAll(d: Decoder, st: Store, es: seq<Element>, sheet: Option<string>)
    ensures ScanCells(d, st, es, sheet).Ok? <==> ParseAll(d, es, sheet).Ok?
    ensures ParseAll(d, es, sheet).Ok? ==> ScanCells(d, st, es, sheet) == Ok(StoreAll(st, ParseAll(d, es, sheet).value))
    ensures ParseAll(d, es, sheet).Err? ==> ScanCells(d, st, es, sheet) == Err(ParseAll(d, es, sheet).error)
    decreases |es|
  {
    if |es| > 0 {
      match ParseCell(d, es[0], sheet)
      case Err(e) =>
      case Ok(c) =>
        ScanCellsIsStoreAll(d, SetCellValues(st, c), es[1..], sheet);
        ParseAllCons(d, es, sheet);
    }
  }

  /** Parsing a non-empty run is parsing its head, then its tail. */
  lemma ParseAllCons(d: Decoder, es: seq<Element>, sheet: Option<string>)
    requires |es| > 0
    ensures ParseAll(d, es, sheet) ==
      match ParseCell(d, es[0], sheet)
      case Err(e) => Err(e)
      case Ok(c) =>
        match ParseAll(d, es[1..], sheet)
        case Err(e) => Err(e)
        case Ok(rest) => Ok([c] + rest)
  {
  }

  /** `read_cells`: the sheet must be listed, the sheets loaded and the
      sheet's part present; a sheet already read is not scanned again, and a
      scan that completes marks the sheet read. A scan that raises leaves
      nothing marked, so the next reader scans and raises again. */
  function ReadCells(wb: Workbook, st: Store, name: string): (r: Result<Store>)
    ensures Some(name) !in SheetNames(wb) ==> r == Err(InvalidSheet(name))
    ensures Some(name) in SheetNames(wb) && !wb.loaded ==> r == Err(NotLoaded)
    ensures r.Err? ==> r.error == InvalidSheet(name) || r.error == NotLoaded || DecodeError(r.error)
    ensures Some(name) in SheetNames(wb) && wb.loaded && SheetPart(wb, name).Err? ==> r == Err(InvalidSheet(name))
    ensures wb.loaded && SheetPart(wb, name).Ok? && name in st.cellsRead ==> r == Ok(st)
    ensures wb.loaded && SheetPart(wb, name).Ok? && name !in st.cellsRead ==>
      && (r.Ok? <==> ParsedCells(wb, name).Ok?)
      && (r.Err? ==> r.error == ParsedCells(wb, name).error)
    ensures r.Ok? ==> wb.loaded && SheetPart(wb, name).Ok?
    ensures r.Ok? ==> r.value.cellsRead == st.cellsRead + {name}
    ensures r.Ok? && Coherent(st) ==> Coherent(r.value)
  {
    if Some(name) !in SheetNames(wb) then Err(InvalidSheet(name))
    else if !wb.loaded then Err(NotLoaded)
    else
      var doc :- SheetPart(wb, name);
      if name in st.cellsRead then Ok(st)
      else
        ScanCellsIsStoreAll(wb.decoder, st, CellElements(doc), Some(name));
        var scanned :- ScanCells(wb.decoder, st, CellElements(doc), Some(name));
        Ok(scanned.(cellsRead := scanned.cellsRead + {name}))
  }

  /** A second read of the same sheet finds it read and changes nothing. */
  lemma ReadCellsOnce(wb: Workbook, st: Store, name: string)
    requires ReadCells(wb, st, name).Ok?
    ensures var after := ReadCells(wb, st, name).value;
      ReadCells(wb, after, name) == Ok(after)
  {
  }

  /** The first read of a sheet stores exactly the cells parsed from its
      `c` elements, in document order, so each position holds the last cell
      parsed there. */
  lemma ReadCellsStoresParsedCells(wb: Workbook, st: Store, name: string)
    requires ReadCells(wb, st, name).Ok? && name !in st.cellsRead
    ensures var cells := ParseAll(wb.decoder, CellElements(SheetPart(wb, name).value), Some(name));
      && cells.Ok?
      && ReadCells(wb, st, name) == Ok(StoreAll(st, cells.value).(cellsRead := st.cellsRead + {name}))
  {
    ScanCellsIsStoreAll(wb.decoder, st, CellElements(SheetPart(wb, name).value), Some(name));
  }

  /** The cells parsed from a sheet's `c` elements on its first read. */
  function ParsedCells(wb: Workbook, name: string): Result<seq<Cell>> {
    var doc :- SheetPart(wb, name);
    ParseAll(wb.decoder, CellElements(doc), Some(name))
  }

  // ---------------------------------------------------------------- readers

  /** The maps of a sheet after it is read, or the error a lookup in a
      missing map raises. */
  function Lookup<V>(m: map<Option<string>, map<Coord, V>>, name: string, at: Coord): (r: Result<Option<V>>)
    ensures r.Err? <==> Some(name) !in m
    ensures r.Err? ==> r.error == NoCellsForSheet(name)
    ensures r.Ok? ==> r.value == Get(m, Some(name), at)
  {
    if Some(name) !in m then Err(NoCellsForSheet(name))
    else if at in m[Some(name)] then Ok(Some(m[Some(name)][at]))
    else Ok(None)
  }

  /** `cell`: the value stored at a position of a sheet, nil when no cell
      with a value is there. */
  function CellAt(wb: Workbook, st: Store, name: string, at: Coord): (r: Result<Answer<CellValue>>)
    ensures ReadCells(wb, st, name).Err? ==> r == Err(ReadCells(wb, st, name).error)
    ensures r.Ok? <==> ReadCells(wb, st, name).Ok? && Some(name) in ReadCells(wb, st, name).value.cells
    ensures ReadCells(wb, st, name).Ok? && Some(name) !in ReadCells(wb, st, name).value.cells ==> r == Err(NoCellsForSheet(name))
    ensures r.Ok? ==> ReadCells(wb, st, name) == Ok(r.value.store)
    ensures r.Ok? ==> Some(name) in r.value.store.cells
    ensures r.Ok? ==> match Get(r.value.store.cells, Some(name), at)
      case None => r.value.value == NoValue
      case Some(x) => r.value.value == x.value
  {
    var read :- ReadCells(wb, st, name);
    var x :- Lookup(read.cells, name, at);
    Ok(Answer(read, match x case None => NoValue case Some(s) => s.value))
  }

  /** `formula`: the formula stored at a position, nil when none. */
  function FormulaAt(wb: Workbook, st: Store, name: string, at: Coord): (r: Result<Answer<Option<string>>>)
    ensures ReadCells(wb, st, name).Err? ==> r == Err(ReadCells(wb, st, name).error)
    ensures r.Ok? <==> ReadCells(wb, st, name).Ok? && Some(name) in ReadCells(wb, st, name).value.formulas
    ensures ReadCells(wb, st, name).Ok? && Some(name) !in ReadCells(wb, st, name).value.formulas ==> r == Err(NoCellsForSheet(name))
    ensures r.Ok? ==> ReadCells(wb, st, name) == Ok(r.value.store)
    ensures r.Ok? ==> r.value.value == Get(r.value.store.formulas, Some(name), at)
  {
    var read :- ReadCells(wb, st, name);
    var f :- Lookup(read.formulas, name, at);
    Ok(Answer(read, f))
  }

  /** `celltype`: `:formula` wherever a formula is stored, whatever type the
      cell was decoded with; otherwise the stored type. */
  function CellTypeAt(wb: Workbook, st: Store, name: string, at: Coord): (r: Result<Answer<Option<CellType>>>)
    ensures ReadCells(wb, st, name).Err? ==> r == Err(ReadCells(wb, st, name).error)
    ensures r.Ok? <==>
      && ReadCells(wb, st, name).Ok?
      && Some(name) in ReadCells(wb, st, name).value.formulas
      && (Get(ReadCells(wb, st, name).value.formulas, Some(name), at).Some? || Some(name) in ReadCells(wb, st, name).value.cells)
    ensures r.Ok? ==> ReadCells(wb, st, name) == Ok(r.value.store)
    ensures r.Ok? && Get(r.value.store.formulas, Some(name), at).Some? ==> r.value.value == Some(Formula)
    ensures r.Ok? && Get(r.value.store.formulas, Some(name), at).None? ==>
      r.value.value == match Get(r.value.store.cells, Some(name), at) case None => None case Some(x) => x.cellType
  {
    var read :- ReadCells(wb, st, name);
    var f :- Lookup(read.formulas, name, at);
    if f.Some? then Ok(Answer(read, Some(Formula)))
    else
      var x :- Lookup(read.cells, name, at);
      Ok(Answer(read, match x case None => None case Some(s) => s.cellType))
  }

  /** `excelx_type`: the stored internal type, nil when no cell is there. */
  function ExcelxTypeAt(wb: Workbook, st: Store, name: string, at: Coord): (r: Result<Answer<Option<ExcelxType>>>)
    ensures ReadCells(wb, st, name).Err? ==> r == Err(ReadCells(wb, st, name).error)
    ensures r.Ok? <==> ReadCells(wb, st, name).Ok? && Some(name) in ReadCells(wb, st, name).value.cells
    ensures ReadCells(wb, st, name).Ok? && Some(name) !in ReadCells(wb, st, name).value.cells ==> r == Err(NoCellsForSheet(name))
    ensures r.Ok? ==> ReadCells(wb, st, name) == Ok(r.value.store)
    ensures r.Ok? ==> r.value.value == match Get(r.value.store.cells, Some(name), at) case None => None case Some(x) => x.excelxType
  {
    var read :- ReadCells(wb, st, name);
    var x :- Lookup(read.cells, name, at);
    Ok(Answer(read, match x case None => None case Some(s) => s.excelxType))
  }

  /** `excelx_value`: the stored raw text, nil when no cell is there. */
  function ExcelxValueAt(wb: Workbook, st: Store, name: string, at: Coord): (r: Result<Answer<Option<string>>>)
    ensures ReadCells(wb, st, name).Err? ==> r == Err(ReadCells(wb, st, name).error)
    ensures r.Ok? <==> ReadCells(wb, st, name).Ok? && Some(name) in ReadCells(wb, st, name).value.cells
    ensures ReadCells(wb, st, name).Ok? && Some(name) !in ReadCells(wb, st, name).value.cells ==> r == Err(NoCellsForSheet(name))
    ensures r.Ok? ==> ReadCells(wb, st, name) == Ok(r.value.store)
    ensures r.Ok? ==> r.value.value == match Get(r.value.store.cells, Some(name), at) case None => None case Some(x) => x.excelxValue
  {
    var read :- ReadCells(wb, st, name);
    var x :- Lookup(read.cells, name, at);
    Ok(Answer(read, match x case None => None case Some(s) => s.excelxValue))
  }

  /** The style index stored at a position, nil when no cell is there. */
  function StyleAt(read: Store, name: string, at: Coord): (r: Result<Option<int>>)
    ensures r.Err? <==> Some(name) !in read.cells
    ensures r.Ok? ==> r.value == match Get(read.cells, Some(name), at) case None => None case Some(x) => x.style
  {
    var x :- Lookup(read.cells, name, at);
    Ok(match x case None => None case Some(s) => s.style)
  }

  /** `excelx_format`: the format code of the stored style index (nil reads
      as index 0), as a string. */
  function ExcelxFormatAt(wb: Workbook, st: Store, name: string, at: Coord): (r: Result<Answer<string>>)
    ensures ReadCells(wb, st, name).Err? ==> r == Err(ReadCells(wb, st, name).error)
    ensures r.Ok? <==> ReadCells(wb, st, name).Ok? && Some(name) in ReadCells(wb, st, name).value.cells && wb.decoder.styles.formats.Some?
    ensures ReadCells(wb, st, name).Ok? && Some(name) !in ReadCells(wb, st, name).value.cells ==> r == Err(NoCellsForSheet(name))
    ensures ReadCells(wb, st, name).Ok? && Some(name) in ReadCells(wb, st, name).value.cells && wb.decoder.styles.formats.None? ==> r == Err(MissingStyles)
    ensures r.Ok? ==> ReadCells(wb, st, name) == Ok(r.value.store)
    ensures r.Ok? ==> wb.decoder.styles.formats.Some?
    ensures r.Ok? ==>
      var s := StyleAt(r.value.store, name, at);
      s.Ok? && r.value.value == NilToS(Attribute2Format(wb.decoder.styles, s.value.GetOr(0)).value)
  {
    var read :- ReadCells(wb, st, name);
    var s :- StyleAt(read, name, at);
    var f :- Attribute2Format(wb.decoder.styles, s.GetOr(0));
    Ok(Answer(read, NilToS(f)))
  }

  /** `font`: the font of the stored style index, index 0 when no cell is
      there. */
  function FontOfCell(wb: Workbook, st: Store, name: string, at: Coord): (r: Result<Answer<Option<Font>>>)
    ensures ReadCells(wb, st, name).Err? ==> r == Err(ReadCells(wb, st, name).error)
    ensures r.Ok? <==> ReadCells(wb, st, name).Ok? && Some(name) in ReadCells(wb, st, name).value.cells
    ensures ReadCells(wb, st, name).Ok? && Some(name) !in ReadCells(wb, st, name).value.cells ==> r == Err(NoCellsForSheet(name))
    ensures r.Ok? ==> ReadCells(wb, st, name) == Ok(r.value.store)
    ensures r.Ok? ==>
      var s := StyleAt(r.value.store, name, at);
      s.Ok? && r.value.value == FontAt(wb.decoder.styles, s.value)
  {
    var read :- ReadCells(wb, st, name);
    var s :- StyleAt(read, name, at);
    Ok(Answer(read, FontAt(wb.decoder.styles, s)))
  }

  // ---------------------------------------------------------------- readers after a first read

  /** On the first read of a sheet, `cell` answers with the value of the
      last cell parsed at that position, or nil when none was. */
  lemma CellAtIsLastParsed(wb: Workbook, st: Store, name: string, at: Coord)
    requires name !in st.cellsRead && CellAt(wb, st, name, at).Ok?
    ensures ParsedCells(wb, name).Ok?
    ensures CellAt(wb, st, name, at).value.value ==
      match LastStored(st, ParsedCells(wb, name).value, Some(name), at)
      case None => NoValue
      case Some(x) => x.value
  {
    ReadCellsStoresParsedCells(wb, st, name);
    StoreAllLastWins(st, ParsedCells(wb, name).value);
  }

  /** On the first read of a sheet into an empty store, every reader raises
      for want of the sheet's maps exactly when no cell with a value was
      parsed from it: empty cells are stored under no sheet. */
  lemma NoCellsExactlyWhenNoneParsed(wb: Workbook, name: string, at: Coord)
    requires ReadCells(wb, EmptyStore(), name).Ok?
    ensures ParsedCells(wb, name).Ok?
    ensures CellAt(wb, EmptyStore(), name, at) == Err(NoCellsForSheet(name)) <==>
      forall i :: 0 <= i < |ParsedCells(wb, name).value| ==> ParsedCells(wb, name).value[i].sheet != Some(name)
  {
    ReadCellsStoresParsedCells(wb, EmptyStore(), name);
    StoreAllSheets(EmptyStore(), ParsedCells(wb, name).value);
  }

  /** Wherever `formula` finds a formula, `celltype` answers `:formula`. */
  lemma FormulaOverridesType(wb: Workbook, st: Store, name: string, at: Coord)
    requires FormulaAt(wb, st, name, at).Ok? && FormulaAt(wb, st, name, at).value.value.Some?
    ensures CellTypeAt(wb, st, name, at) == Ok(Answer(FormulaAt(wb, st, name, at).value.store, Some(Formula)))
  {
  }
}

=== FILE: comments.dfy ===
/** Cell comments (`read_comments`; section 18.7 of ECMA-376 Part 1): each
    `comment` of a sheet's comments part names a cell by its `ref`, and each
    text run inside it is stored for that cell in turn, so the last run is
    what remains. */
module Comments {
  import opened Common
  import opened Xml
  import opened A1
  import opened Sheets

  /** `@comment` by sheet and position, and `@comments_read`. */
  datatype CommentStore = CommentStore(bySheet: map<string, map<Coord, string>>, read: set<string>)

  /** `comments/commentList/comment` below the part's root. */
  function CommentElements(doc: Element): seq<Element> {
    Step(Step(Named(doc, "comments"), "commentList"), "comment")
  }

  /** `./text/r/t`: the text runs of one comment, in order. */
  function Runs(comment: Element): seq<Element> {
    Step(Step(ChildrenNamed(comment, "text"), "r"), "t")
  }

  /** The comments of one sheet, or an empty map before the first write. */
  function SheetComments(m: map<string, map<Coord, string>>, sheet: string): map<Coord, string> {
    if sheet in m then m[sheet] else map[]
  }

  /** Each run stored at `at` in turn, the sheet's map created on the first. */
  function StoreRuns(m: map<string, map<Coord, string>>, sheet: string, at: Coord, runs: seq<Element>)
    : map<string, map<Coord, string>>
    decreases |runs|
  {
    if |runs| == 0 then m
    else StoreRuns(m[sheet := SheetComments(m, sheet)[at := runs[0].text]], sheet, at, runs[1..])
  }

  /** Storing a comment's runs leaves the text of its last run at its
      position, touches nothing else, and creates the sheet's map only when
      there is a run. */
  lemma {:induction false} StoreRunsLastWins(m: map<string, map<Coord, string>>, sheet: string, at: Coord, runs: seq<Element>)
    ensures |runs| == 0 ==> StoreRuns(m, sheet, at, runs) == m
    ensures |runs| > 0 ==>
      StoreRuns(m, sheet, at, runs) == m[sheet := SheetComments(m, sheet)[at := runs[|runs| - 1].text]]
    decreases |runs|
  {
    if |runs| > 0 {
      var m' := m[sheet := SheetComments(m, sheet)[at := runs[0].text]];
      StoreRunsLastWins(m', sheet, at, runs[1..]);
      if |runs| > 1 {
        assert runs[1..][|runs[1..]| - 1] == runs[|runs| - 1];
        assert SheetComments(m', sheet)[at := runs[|runs| - 1].text] == SheetComments(m, sheet)[at := runs[|runs| - 1].text];
      }
    }
  }

  /** `m[sheet][at]`, nil when either level is missing. */
  function CommentGet(m: map<string, map<Coord, string>>, sheet: string, at: Coord): Option<string> {
    if sheet in m && at in m[sheet] then Some(m[sheet][at]) else None
  }

  /** The text of the last run of the last of `comments` that names `at` and
      has a run. */
  function LastRunAt(comments: seq<Element>, at: Coord): Option<string>
    decreases |comments|
  {
    if |comments| == 0 then None
    else
      var runs := Runs(comments[0]);
      var here := if CommentAt(comments[0]) == Ok(at) && |runs| > 0 then Some(runs[|runs| - 1].text) else None;
      OrElse(LastRunAt(comments[1..], at), here)
  }

  /** Whether some of `comments` has a run. */
  predicate AnyRuns(comments: seq<Element>) {
    exists i :: 0 <= i < |comments| && |Runs(comments[i])| > 0
  }

  /** The comments visited in order; a comment whose `ref` is not a cell
      reference raises. */
  function StoreComments(m: map<string, map<Coord, string>>, sheet: string, comments: seq<Element>)
    : (r: Result<map<string, map<Coord, string>>>)
    ensures r.Err? ==> r.error.BadReference?
    ensures r.Ok? <==> forall i :: 0 <= i < |comments| ==> CommentAt(comments[i]).Ok?
    decreases |comments|
  {
    if |comments| == 0 then Ok(m)
    else
      var at :- CommentAt(comments[0]);
      var rest := comments[1..];
      assert forall i :: 1 <= i < |comments| ==> comments[i] == rest[i - 1];
      StoreComments(StoreRuns(m, sheet, at, Runs(comments[0])), sheet, rest)
  }

  /** Some of `comments` has a run exactly when the first has one or some
      of the others has. */
  lemma AnyRunsCons(comments: seq<Element>)
    requires |comments| > 0
    ensures AnyRuns(comments) <==> |Runs(comments[0])| > 0 || AnyRuns(comments[1..])
  {
    var rest := comments[1..];
    if AnyRuns(rest) {
      var i :| 0 <= i < |rest| && |Runs(rest[i])| > 0;
      assert comments[i + 1] == rest[i];
    }
    if AnyRuns(comments) && |Runs(comments[0])| == 0 {
      var i :| 0 <= i < |comments| && |Runs(comments[i])| > 0;
      assert rest[i - 1] == comments[i];
    }
  }

  /** Storing several comments leaves the sheet's map in place, and creates
      it when some comment had a run. */
  lemma {:induction false} StoreCommentsSheets(m: map<string, map<Coord, string>>, sheet: string, comments: seq<Element>)
    ensures var r := StoreComments(m, sheet, comments);
      r.Ok? ==> (sheet in r.value <==> sheet in m || AnyRuns(comments))
    decreases |comments|
  {
    if |comments| > 0 && CommentAt(comments[0]).Ok? {
      var at0 := CommentAt(comments[0]).value;
      var m' := StoreRuns(m, sheet, at0, Runs(comments[0]));
      StoreRunsLastWins(m, sheet, at0, Runs(comments[0]));
      StoreCommentsSheets(m', sheet, comments[1..]);
      AnyRunsCons(comments);
      assert StoreComments(m, sheet, comments) == StoreComments(m', sheet, comments[1..]);
    }
  }

  /** Storing several comments creates no other sheet's map and leaves the
      other sheets' comments untouched. */
  lemma {:induction false} StoreCommentsOtherSheets(m: map<string, map<Coord, string>>, sheet: string, comments: seq<Element>)
    ensures var r := StoreComments(m, sheet, comments);
      r.Ok? ==> forall s :: s != sheet ==> (s in r.value <==> s in m) && (s in m ==> r.value[s] == m[s])
    decreases |comments|
  {
    if |comments| > 0 && CommentAt(comments[0]).Ok? {
      var at0 := CommentAt(comments[0]).value;
      var m' := StoreRuns(m, sheet, at0, Runs(comments[0]));
      StoreRunsLastWins(m, sheet, at0, Runs(comments[0]));
      StoreCommentsOtherSheets(m', sheet, comments[1..]);
      assert StoreComments(m, sheet, comments) == StoreComments(m', sheet, comments[1..]);
      assert forall s :: s != sheet ==> (s in m' <==> s in m) && (s in m ==> m'[s] == m[s]);
    }
  }

  /** Storing several comments: each position of the sheet holds the last
      run of the last comment naming it that has a run, or what it held
      before when there is none. */
  lemma {:induction false} StoreCommentsLastWins(m: map<string, map<Coord, string>>, sheet: string, comments: seq<Element>)
    ensures var r := StoreComments(m, sheet, comments);
      r.Ok? ==> forall at :: CommentGet(r.value, sheet, at) == OrElse(LastRunAt(comments, at), CommentGet(m, sheet, at))
    decreases |comments|
  {
    if |comments| > 0 && CommentAt(comments[0]).Ok? {
      var at0 := CommentAt(comments[0]).value;
      var runs := Runs(comments[0]);
      var m' := StoreRuns(m, sheet, at0, runs);
      var rest := comments[1..];
      StoreRunsLastWins(m, sheet, at0, runs);
      StoreCommentsLastWins(m', sheet, rest);
      var r := StoreComments(m, sheet, comments);
      assert r == StoreComments(m', sheet, rest);
      if r.Ok? {
        forall at
          ensures CommentGet(r.value, sheet, at) == OrElse(LastRunAt(comments, at), CommentGet(m, sheet, at))
        {
          var here := if at0 == at && |runs| > 0 then Some(runs[|runs| - 1].text) else None;
          assert LastRunAt(comments, at) == OrElse(LastRunAt(rest, at), here);
          assert CommentGet(m', sheet, at) == OrElse(here, CommentGet(m, sheet, at));
        }
      }
    }
  }

  /** The position a comment names: its `ref` (nil read as "") in A1 form. */
  function CommentAt(comment: Element): (r: Result<Coord>)
    ensures r.Err? ==> r.error.BadReference?
  {
    var ref := Attr(comment, "ref").GetOr("");
    match SplitCoordinate(Some(ref))
    case Ok(c) => Ok(c)
    case Err(_) => Err(BadReference(Some(ref)))
  }

  /** `read_comments`: the sheet must be listed and the documents loaded; a
      sheet without a comments part is left unread; otherwise every comment
      is stored and the sheet marked read. */
  function ReadComments(wb: Workbook, st: CommentStore, name: string): (r: Result<CommentStore>)
    ensures Some(name) !in SheetNames(wb) ==> r == Err(InvalidSheet(name))
    ensures Some(name) in SheetNames(wb) && !wb.loaded ==> r == Err(NotLoaded)
    ensures r.Err? ==> r.error == InvalidSheet(name) || r.error == NotLoaded || r.error.BadReference?
    ensures r.Ok? ==> r.value.read == st.read || r.value.read == st.read + {name}
    ensures r.Ok? && name !in r.value.read ==> r.value == st
    ensures Some(name) in SheetNames(wb) && wb.loaded && SheetIndex(wb, name).value >= |wb.commentParts| ==>
      r == Ok(st)
    ensures Some(name) in SheetNames(wb) && wb.loaded && SheetIndex(wb, name).value < |wb.commentParts| ==>
      var comments := CommentElements(wb.commentParts[SheetIndex(wb, name).value]);
      && (r.Ok? <==> forall i :: 0 <= i < |comments| ==> CommentAt(comments[i]).Ok?)
      && (r.Ok? ==> r.value.read == st.read + {name})
  {
    if Some(name) !in SheetNames(wb) then Err(InvalidSheet(name))
    else if !wb.loaded then Err(NotLoaded)
    else
      var n := SheetIndex(wb, name).value;
      if n >= |wb.commentParts| then Ok(st)
      else
        var m :- StoreComments(st.bySheet, name, CommentElements(wb.commentParts[n]));
        Ok(CommentStore(m, st.read + {name}))
  }

  /** A single comment with runs stores the text of its last run, and
      nothing else, for the position it names. */
  lemma SingleCommentStored(m: map<string, map<Coord, string>>, sheet: string, comment: Element)
    requires CommentAt(comment).Ok? && |Runs(comment)| > 0
    ensures var runs := Runs(comment);
      StoreComments(m, sheet, [comment]) ==
        Ok(m[sheet := SheetComments(m, sheet)[CommentAt(comment).value := runs[|runs| - 1].text]])
  {
    var at := CommentAt(comment).value;
    StoreRunsLastWins(m, sheet, at, Runs(comment));
    assert [comment][1..] == [];
    assert StoreComments(m, sheet, [comment]) == StoreComments(StoreRuns(m, sheet, at, Runs(comment)), sheet, []);
  }

  /** A sheet whose comments part holds a single comment with runs reads as
      the text of that comment's last run at its position. */
  lemma SingleCommentKeepsLastRun(wb: Workbook, st: CommentStore, name: string, comment: Element)
    requires Some(name) in SheetNames(wb) && wb.loaded
    requires SheetIndex(wb, name).value < |wb.commentParts|
    requires CommentElements(wb.commentParts[SheetIndex(wb, name).value]) == [comment]
    requires CommentAt(comment).Ok? && |Runs(comment)| > 0
    ensures var runs := Runs(comment);
      ReadComments(wb, st, name) ==
        Ok(CommentStore(st.bySheet[name := SheetComments(st.bySheet, name)[CommentAt(comment).value := runs[|runs| - 1].text]],
                        st.read + {name}))
  {
    SingleCommentStored(st.bySheet, name, comment);
  }

  /** Reading a sheet's comments stores, at each position, the last run of
      the last comment naming it that has a run, keeping what was there
      when no comment with a run names it. */
  lemma ReadCommentsKeepsLastRuns(wb: Workbook, st: CommentStore, name: string)
    requires Some(name) in SheetNames(wb) && wb.loaded
    requires SheetIndex(wb, name).value < |wb.commentParts|
    requires ReadComments(wb, st, name).Ok?
    ensures var comments := CommentElements(wb.commentParts[SheetIndex(wb, name).value]);
      var after := ReadComments(wb, st, name).value.bySheet;
      forall at :: CommentGet(after, name, at) == OrElse(LastRunAt(comments, at), CommentGet(st.bySheet, name, at))
  {
    StoreCommentsLastWins(st.bySheet, name, CommentElements(wb.commentParts[SheetIndex(wb, name).value]));
  }
}

=== FILE: common.dfy ===
/** Failure-compatible wrappers and the error conditions the Excelx reader raises. */
module Common {

  /** Ruby's `nil` versus a present value. */
  datatype Option<+T> = None | Some(value: T) {
    function GetOr(default: T): T {
      match this
      case Some(v) => v
      case None => default
    }
  }

  /** `a || b` on values that may be nil. */
  function OrElse<T>(a: Option<T>, b: Option<T>): Option<T> {
    if a.Some? then a else b
  }

  /** The conditions `Roo::Excelx` raises while decoding or querying a workbook. */
  datatype Error =
    | InvalidSheet(name: string)          // validate_sheet! or the "Invalid sheet" guard
    | NotLoaded                           // "Documents not loaded, turn off minimal_load ..."
    | AlreadyLoaded                       // "Documents already loaded, turn on minimal_load ..."
    | MissingStyles                       // attribute2format on a workbook without a styles part
    | BadReference(reference: Option<string>) // a cell or comment reference that is not A1 notation
    | NoCellsForSheet(sheet: string)      // a lookup in a per-sheet map that was never created
    | MalformedDefinedName(text: string)  // a defined name whose text has no "!$"
    | BadColumn(letters: Option<string>)  // a column that is not a run of letters

  /** Success with a value, or one of the raised conditions. */
  datatype Result<+T> = Ok(value: T) | Err(error: Error) {
    predicate IsFailure() {
      Err?
    }

    function PropagateFailure<U>(): Result<U>
      requires Err?
    {
      Err(error)
    }

    function Extract(): T
      requires Ok?
    {
      value
    }
  }

  /** `f` applied to each of `xs` in order, stopping at the first failure. */
  function Traverse<A, B>(f: A -> Result<B>, xs: seq<A>): (r: Result<seq<B>>)
    ensures r.Ok? ==> |r.value| == |xs| && forall i :: 0 <= i < |xs| ==> f(xs[i]) == Ok(r.value[i])
    ensures r.Ok? <==> forall i :: 0 <= i < |xs| ==> f(xs[i]).Ok?
    ensures r.Err? ==> exists k :: 0 <= k < |xs| && f(xs[k]) == Err(r.error) && forall i :: 0 <= i < k ==> f(xs[i]).Ok?
  {
    if |xs| == 0 then Ok([])
    else
      var first :- f(xs[0]);
      var rest :- Traverse(f, xs[1..]);
      assert forall i :: 1 <= i < |xs| ==> xs[i] == xs[1..][i - 1];
      Ok([first] + rest)
  }

  /** What an iteration that stops at the first failure has handed over:
      the values before it, and the failure, if any. */
  datatype Prefix<B> = Prefix(values: seq<B>, failure: Option<Error>)

  /** `f` applied to each of `xs` in order, each value handed over as soon
      as it is computed; the first failure ends the iteration. */
  function TraversePrefix<A, B>(f: A -> Result<B>, xs: seq<A>): (p: Prefix<B>)
    ensures |p.values| <= |xs|
    ensures forall i :: 0 <= i < |p.values| ==> f(xs[i]) == Ok(p.values[i])
    ensures p.failure.None? <==> |p.values| == |xs|
    ensures p.failure.Some? ==> f(xs[|p.values|]) == Err(p.failure.value)
  {
    if |xs| == 0 then Prefix([], None)
    else match f(xs[0])
      case Err(e) => Prefix([], Some(e))
      case Ok(v) =>
        var rest := TraversePrefix(f, xs[1..]);
        assert forall i :: 1 <= i <= |rest.values| ==> xs[i] == xs[1..][i - 1];
        Prefix([v] + rest.values, rest.failure)
  }

  /** Collecting what the iteration hands over is `Traverse`: all the
      values when nothing fails, and the first failure otherwise. */
  lemma {:induction false} TraverseIsPrefix<A, B>(f: A -> Result<B>, xs: seq<A>)
    ensures var p := TraversePrefix(f, xs);
      Traverse(f, xs) == if p.failure.None? then Ok(p.values) else Err(p.failure.value)
  {
    if |xs| > 0 {
      TraverseIsPrefix(f, xs[1..]);
    }
  }

  /** Iterating over the first `n` of `xs` hands over the first `n` values
      of the whole iteration, or all of them with the same failure when it
      stops before `n`: nothing past `n` is ever looked at. */
  lemma {:induction false} TraversePrefixCut<A, B>(f: A -> Result<B>, xs: seq<A>, n: nat)
    requires n <= |xs|
    ensures var whole := TraversePrefix(f, xs);
      var cut := TraversePrefix(f, xs[..n]);
      && (|whole.values| >= n ==> cut == Prefix(whole.values[..n], None))
      && (|whole.values| < n ==> cut == whole)
  {
    if n > 0 {
      assert xs[..n][0] == xs[0];
      assert xs[..n][1..] == xs[1..][..n - 1];
      TraversePrefixCut(f, xs[1..], n - 1);
    }
  }
}

=== FILE: dates.dfy ===
/** Dates in the workbook's date system (`read_base_date`, section 18.2.28 of
    ECMA-376 Part 1). A date is a whole number of days after 1899-12-30; the
    1904 date system starts 1462 days later, on 1904-01-01. A date-time is a
    (day, second of the day) pair. */
module Dates {
  import opened Common
  import opened RubyCore
  import opened Xml

  /** The first day of the 1904 date system, in days after 1899-12-30. */
  const Base1904: int := 1462

  const SecondsPerDay: int := 86400

  // ---------------------------------------------------------------- the calendar

  /** Days from 1970-01-01 to a date of the proleptic Gregorian calendar, by
      counting 400-year eras from a March-based year. */
  function DaysFromCivil(y: int, m: int, d: int): int
    requires 1 <= m <= 12 && 1 <= d <= 31
  {
    var y1 := if m <= 2 then y - 1 else y;
    var era := y1 / 400;
    var yoe := y1 - era * 400;
    var mp := (m + 9) % 12;
    var doy := (153 * mp + 2) / 5 + d - 1;
    var doe := yoe * 365 + yoe / 4 - yoe / 100 + doy;
    era * 146097 + doe - 719468
  }

  /** The day offset of a calendar date: days after 1899-12-30. */
  function DayOf(y: int, m: int, d: int): int
    requires 1 <= m <= 12 && 1 <= d <= 31
  {
    DaysFromCivil(y, m, d) - DaysFromCivil(1899, 12, 30)
  }

  lemma EpochDay()
    ensures DaysFromCivil(1899, 12, 30) == -25569
  {
  }

  /** The 1904 system starts on 1904-01-01, which is day 1462. */
  lemma Base1904IsJanuaryFirst1904()
    ensures DayOf(1904, 1, 1) == Base1904
  {
    EpochDay();
    assert DaysFromCivil(1904, 1, 1) == -24107;
  }

  /** Counting from 1899-12-30 makes serial 61 land on 1900-03-01, as in the
      spreadsheet's own 1900 system, which counts a 1900-02-29 that the
      Gregorian calendar does not have. */
  lemma Serial61IsMarchFirst1900()
    ensures DayOf(1900, 3, 1) == 61
  {
    EpochDay();
    assert DaysFromCivil(1900, 3, 1) == -25508;
  }

  /** Serial 60, which the spreadsheet's 1900 system shows as 1900-02-29,
      reads here as 1900-02-28. */
  lemma Serial60IsFebruary28th1900()
    ensures DayOf(1900, 2, 28) == 60
  {
    EpochDay();
    assert DaysFromCivil(1900, 2, 28) == -25509;
  }

  // ---------------------------------------------------------------- read_base_date

  /** A `workbookPr` element whose `date1904` attribute matches /true|1/i. */
  predicate Date1904(pr: Element) {
    match Attr(pr, "date1904")
    case None => false
    case Some(v) => ContainsSub(Lower(v), "true") || '1' in v
  }

  /** Some element of `prs` asks for the 1904 system. */
  predicate AnyDate1904(prs: seq<Element>) {
    exists i :: 0 <= i < |prs| && Date1904(prs[i])
  }

  /** The base date after visiting the `workbookPr` elements in order: any
      element that asks for the 1904 system switches to it, and nothing
      switches back. */
  function BaseDateLoop(prs: seq<Element>, base: int): (r: int)
    ensures r == Base1904 || r == base
    ensures AnyDate1904(prs) ==> r == Base1904
    ensures !AnyDate1904(prs) ==> r == base
  {
    if |prs| == 0 then base
    else
      assert AnyDate1904(prs) <==> Date1904(prs[0]) || AnyDate1904(prs[1..]) by {
        if AnyDate1904(prs[1..]) {
          var i :| 0 <= i < |prs[1..]| && Date1904(prs[1..][i]);
          assert prs[i + 1] == prs[1..][i];
        }
        if AnyDate1904(prs) && !Date1904(prs[0]) {
          var i :| 0 <= i < |prs| && Date1904(prs[i]);
          assert prs[1..][i - 1] == prs[i];
        }
      }
      BaseDateLoop(prs[1..], if Date1904(prs[0]) then Base1904 else base)
  }

  /** `read_base_date`: 1899-12-30 (day 0) unless some `workbookPr` of the
      workbook sets date1904. */
  function ReadBaseDate(workbook: Element): (r: int)
    ensures r == 0 || r == Base1904
    ensures r == Base1904 <==> AnyDate1904(Named(workbook, "workbookPr"))
  {
    BaseDateLoop(Named(workbook, "workbookPr"), 0)
  }

  /** "1" and "TRUE" select the 1904 system; "0" does not. */
  lemma Date1904Values(pr: Element)
    ensures Attr(pr, "date1904") == Some("1") ==> Date1904(pr)
    ensures Attr(pr, "date1904") == Some("0") ==> !Date1904(pr)
    ensures Attr(pr, "date1904") == Some("TRUE") ==> Date1904(pr)
  {
    assert Lower("TRUE") == "true";
    assert FindSub("true", "true") == Some(0);
    assert FindSub("0", "true") == None;
  }

  // ---------------------------------------------------------------- date-times

  function AbsReal(x: real): real {
    if x < 0.0 then -x else x
  }

  /** `Float#round(6)` on an exact value: the nearest multiple of 10^-6,
      halves rounded away from zero. */
  function Round6(x: real): (r: real)
    ensures r * 1000000.0 == RoundedMicros(x) as real
    ensures AbsReal(r - x) <= 0.0000005
    ensures AbsReal(r - x) == 0.0000005 ==> AbsReal(r) > AbsReal(x)
  {
    RoundedMicros(x) as real / 1000000.0
  }

  /** The whole number of millionths nearest to `x`, halves rounded away
      from zero. */
  function RoundedMicros(x: real): (k: int)
    ensures AbsReal(k as real - x * 1000000.0) <= 0.5
    ensures AbsReal(k as real - x * 1000000.0) == 0.5 ==> AbsReal(k as real) > AbsReal(x * 1000000.0)
  {
    if x >= 0.0 then HalfUpMicros(x) else -HalfUpMicros(-x)
  }

  /** The number of millionths nearest to `x`, halves rounded up. */
  function HalfUpMicros(x: real): (k: int)
    ensures x * 1000000.0 - 0.5 < k as real <= x * 1000000.0 + 0.5
  {
    (x * 1000000.0 + 0.5).Floor
  }

  /** A date-time: the day (after 1899-12-30) and the second of that day. */
  datatype Stamp = Stamp(day: int, second: int)

  /** The date-time of a serial: the serial rounded to six decimals, added to
      the base date, then rounded to the nearest second (halves up). */
  function StampOf(base: int, serial: real): (r: Stamp)
    ensures 0 <= r.second < SecondsPerDay
    ensures var delta := ((r.day - base) * SecondsPerDay + r.second) as real - Round6(serial) * 86400.0;
      -0.5 < delta <= 0.5
  {
    var total := (Round6(serial) * 86400.0 + 0.5).Floor;
    Stamp(base + total / SecondsPerDay, total % SecondsPerDay)
  }

  /** A whole serial is midnight of the day that many days after the base. */
  lemma StampOfWholeSerial(base: int, n: int)
    ensures StampOf(base, n as real) == Stamp(base + n, 0)
  {
    var x := n as real;
    if n >= 0 {
      assert HalfUpMicros(x) == n * 1000000;
    } else {
      assert HalfUpMicros(-x) == -n * 1000000;
    }
    assert Round6(x) == x;
    assert (x * 86400.0 + 0.5).Floor == n * 86400;
  }
}

=== FILE: labels.dfy ===
/** Defined names (`read_labels`, `label`; section 18.2.5 of ECMA-376 Part 1):
    a `definedName` whose text reads `Sheet!$COL$ROW` labels one cell. */
module Labels {
  import opened Common
  import opened RubyCore
  import opened Xml
  import opened A1

  /** `[sheet, row, col]` as `read_labels` keeps it: the text before the
      first "!$", then the first two "$"-separated pieces after it. */
  datatype LabelDef = LabelDef(sheet: string, row: Option<string>, col: Option<string>)

  /** What `label` answers for a defined label. */
  datatype LabelAt = LabelAt(row: int, col: nat, sheet: string)

  /** The piece at `i`, nil past the end (multiple assignment from an array). */
  function PieceAt(pieces: seq<string>, i: nat): (r: Option<string>)
    ensures r.Some? <==> i < |pieces|
    ensures r.Some? ==> r.value == pieces[i]
  {
    if i < |pieces| then Some(pieces[i]) else None
  }

  /** One defined name's text split as `read_labels` splits it; a text
      without "!$" leaves nothing to split further and raises. */
  function ParseDefinedName(text: string): (r: Result<LabelDef>)
    ensures r.Err? <==> |SplitOnce(text, "!$")| < 2
    ensures r.Err? ==> r.error == MalformedDefinedName(text)
    ensures r.Ok? ==>
      var halves := SplitOnce(text, "!$");
      var coords := Split(halves[1], '$');
      r.value == LabelDef(halves[0], PieceAt(coords, 1), PieceAt(coords, 0))
  {
    var halves := SplitOnce(text, "!$");
    if |halves| < 2 then Err(MalformedDefinedName(text))
    else
      var coords := Split(halves[1], '$');
      Ok(LabelDef(halves[0], PieceAt(coords, 1), PieceAt(coords, 0)))
  }

  /** The position of the last of `defs` named `name`. */
  function LastNamed(defs: seq<Element>, name: Option<string>): (r: Option<nat>)
    ensures r.Some? ==> r.value < |defs| && Attr(defs[r.value], "name") == name
    ensures r.Some? ==> forall j :: r.value < j < |defs| ==> Attr(defs[j], "name") != name
    ensures r.None? ==> forall j :: 0 <= j < |defs| ==> Attr(defs[j], "name") != name
  {
    if |defs| == 0 then None
    else if Attr(defs[|defs| - 1], "name") == name then Some(|defs| - 1)
    else LastNamed(defs[..|defs| - 1], name)
  }

  /** The parsed definitions gathered by name, a later definition of a name
      replacing an earlier one (`Hash[...]`). */
  function Gather(defs: seq<Element>, parsed: seq<LabelDef>): map<Option<string>, LabelDef>
    requires |defs| == |parsed|
  {
    if |defs| == 0 then map[]
    else Gather(defs[..|defs| - 1], parsed[..|defs| - 1])[Attr(defs[|defs| - 1], "name") := parsed[|defs| - 1]]
  }

  lemma {:induction false} GatherLastWins(defs: seq<Element>, parsed: seq<LabelDef>, name: Option<string>)
    requires |defs| == |parsed|
    ensures name in Gather(defs, parsed) <==> LastNamed(defs, name).Some?
    ensures name in Gather(defs, parsed) ==> Gather(defs, parsed)[name] == parsed[LastNamed(defs, name).value]
  {
    if |defs| > 0 {
      var n := |defs| - 1;
      GatherLastWins(defs[..n], parsed[..n], name);
      if Attr(defs[n], "name") != name && LastNamed(defs[..n], name).Some? {
        assert parsed[..n][LastNamed(defs[..n], name).value] == parsed[LastNamed(defs, name).value];
      }
    }
  }

  /** Every definition parsed in order, the first malformed one raising,
      then gathered by name. */
  function LabelsOf(defs: seq<Element>): (r: Result<map<Option<string>, LabelDef>>)
    ensures r.Ok? <==> forall j :: 0 <= j < |defs| ==> ParseDefinedName(defs[j].text).Ok?
    ensures r.Err? ==> r.error.MalformedDefinedName?
  {
    var parsed :- Traverse((e: Element) => ParseDefinedName(e.text), defs);
    Ok(Gather(defs, parsed))
  }

  /** A name is defined when some definition carries it, and it labels
      what its last definition says. */
  lemma LabelsOfLastWins(defs: seq<Element>, name: Option<string>)
    requires forall j :: 0 <= j < |defs| ==> ParseDefinedName(defs[j].text).Ok?
    ensures LabelsOf(defs).Ok?
    ensures name in LabelsOf(defs).value <==> LastNamed(defs, name).Some?
    ensures name in LabelsOf(defs).value ==>
      LabelsOf(defs).value[name] == ParseDefinedName(defs[LastNamed(defs, name).value].text).value
  {
    var parsed := Traverse((e: Element) => ParseDefinedName(e.text), defs).value;
    GatherLastWins(defs, parsed, name);
  }

  /** `read_labels`: the defined names anywhere in the workbook. */
  function ReadLabels(workbook: Element): Result<map<Option<string>, LabelDef>> {
    LabelsOf(Named(workbook, "definedName"))
  }

  /** The row read as an integer, the column letters as a column number. */
  function Resolve(d: LabelDef): (r: Result<LabelAt>)
    ensures r.Ok? <==> LetterToNumber(d.col).Ok?
    ensures r.Ok? ==> r.value == LabelAt(NilToI(d.row), LetterToNumber(d.col).value, d.sheet)
  {
    var col :- LetterToNumber(d.col);
    Ok(LabelAt(NilToI(d.row), col, d.sheet))
  }

  /** `label`: nil for a name that is not defined, else its resolved cell. */
  function Label(workbook: Element, name: string): (r: Result<Option<LabelAt>>)
    ensures ReadLabels(workbook).Err? ==> r == Err(ReadLabels(workbook).error)
    ensures ReadLabels(workbook).Ok? && Some(name) !in ReadLabels(workbook).value ==> r == Ok(None)
    ensures ReadLabels(workbook).Ok? && Some(name) in ReadLabels(workbook).value ==>
      var d := ReadLabels(workbook).value[Some(name)];
      (r.Ok? <==> Resolve(d).Ok?) && (r.Ok? ==> r.value == Some(Resolve(d).value))
  {
    var labels :- ReadLabels(workbook);
    if Some(name) !in labels then Ok(None)
    else
      var at :- Resolve(labels[Some(name)]);
      Ok(Some(at))
  }

  // ---------------------------------------------------------------- round trip

  /** The text of a defined name for a cell: `Sheet!$COL$ROW`. */
  function DefinedNameText(sheet: string, at: Coord): string
    requires at.col >= 1
  {
    sheet + "!$" + ColumnName(at.col) + "$" + NatToString(at.row)
  }

  /** The first "!$" of a defined name's text is the one after the sheet,
      when the sheet name has none of its own. */
  lemma FirstMark(sheet: string, rest: string)
    requires !ContainsSub(sheet, "!$")
    ensures FindSub(sheet + "!$" + rest, "!$") == Some(|sheet|)
  {
    var s := sheet + "!$" + rest;
    assert s[|sheet|..] == "!$" + rest;
    assert OccursAt(s, "!$", |sheet|);
    forall k | 0 <= k < |sheet|
      ensures !OccursAt(s, "!$", k)
    {
      if k + 2 <= |sheet| {
        assert !OccursAt(sheet, "!$", k);
        assert s[k] == sheet[k] && s[k + 1] == sheet[k + 1];
      } else {
        assert s[k + 1] == '!';
      }
    }
  }

  /** A defined name for a cell splits back into the sheet, the row digits
      and the column letters. */
  lemma ParseDefinedNameText(sheet: string, at: Coord)
    requires at.col >= 1 && !ContainsSub(sheet, "!$")
    ensures ParseDefinedName(DefinedNameText(sheet, at)) ==
      Ok(LabelDef(sheet, Some(NatToString(at.row)), Some(ColumnName(at.col))))
  {
    var letters := ColumnName(at.col);
    var digits := NatToString(at.row);
    var coords := letters + "$" + digits;
    var text := DefinedNameText(sheet, at);
    assert text == sheet + "!$" + coords;
    FirstMark(sheet, coords);
    assert text[..|sheet|] == sheet;
    assert text[|sheet| + 2..] == coords;
    assert '$' !in letters by {
      assert forall i :: 0 <= i < |letters| ==> IsLetter(letters[i]);
    }
    assert '$' !in digits by {
      assert forall i :: 0 <= i < |digits| ==> IsDigit(digits[i]);
    }
    PiecesOfSeparated(letters, digits, '$');
    PiecesOfPlain(digits, '$');
    assert Pieces(coords, '$') == [letters, digits];
  }

  /** A label defined as `Sheet!$COL$ROW` names that sheet's cell. */
  lemma ResolveDefinedNameText(sheet: string, at: Coord)
    requires at.col >= 1 && !ContainsSub(sheet, "!$")
    ensures ParseDefinedName(DefinedNameText(sheet, at)).Ok?
    ensures Resolve(ParseDefinedName(DefinedNameText(sheet, at)).value) == Ok(LabelAt(at.row, at.col, sheet))
  {
    ParseDefinedNameText(sheet, at);
    ToIOfNatString(at.row, "");
    assert NatToString(at.row) + "" == NatToString(at.row);
    ColumnNumberOfName(at.col);
  }

  /** When the last definition of a name reads `Sheet!$COL$ROW`, `label`
      answers with that row, that column number and that sheet. */
  lemma LabelNamesItsCell(workbook: Element, name: string, sheet: string, at: Coord)
    requires var defs := Named(workbook, "definedName");
      forall j :: 0 <= j < |defs| ==> ParseDefinedName(defs[j].text).Ok?
    requires at.col >= 1 && !ContainsSub(sheet, "!$")
    requires var defs := Named(workbook, "definedName");
      var k := LastNamed(defs, Some(name));
      k.Some? && defs[k.value].text == DefinedNameText(sheet, at)
    ensures Label(workbook, name) == Ok(Some(LabelAt(at.row, at.col, sheet)))
  {
    LabelsOfLastWins(Named(workbook, "definedName"), Some(name));
    ResolveDefinedNameText(sheet, at);
  }
}

=== FILE: number_format.dfy ===
/** `Roo::Excelx::Format`: the built-in number formats of section 18.8.30
    (numFmt) of ECMA-376 Part 1 and the heuristic that turns a format code
    into the type of the cells that use it. */
module NumberFormat {
  import opened Common
  import opened RubyCore

  /** The type tags a cell can carry (`celltype`'s symbols). The classifier
      only ever yields the numeric family: Float, Date, Time, DateTime and
      Percentage. */
  datatype CellType = Float | String | Boolean | Date | Time | DateTime | Percentage | Formula

  predicate IsNumericFamily(t: CellType) {
    t.Float? || t.Date? || t.Time? || t.DateTime? || t.Percentage?
  }

  /** Lower-cased codes that bypass the heuristic (`EXCEPTIONAL_FORMATS`):
      twelve-hour times, which would otherwise read as times. */
  const ExceptionalFormats: map<string, CellType> := map[
    "h:mm am/pm" := Date,
    "h:mm:ss am/pm" := Date
  ]

  /** `STANDARD_FORMATS[id]`: the built-in format code of an id, nil for an
      id the table does not list. */
  function StandardFormat(id: int): Option<string> {
    match id
    case 0 => Some("General")
    case 1 => Some("0")
    case 2 => Some("0.00")
    case 3 => Some("#,##0")
    case 4 => Some("#,##0.00")
    case 9 => Some("0%")
    case 10 => Some("0.00%")
    case 11 => Some("0.00E+00")
    case 12 => Some("# ?/?")
    case 13 => Some("# ??/??")
    case 14 => Some("mm-dd-yy")
    case 15 => Some("d-mmm-yy")
    case 16 => Some("d-mmm")
    case 17 => Some("mmm-yy")
    case 18 => Some("h:mm AM/PM")
    case 19 => Some("h:mm:ss AM/PM")
    case 20 => Some("h:mm")
    case 21 => Some("h:mm:ss")
    case 22 => Some("m/d/yy h:mm")
    case 37 => Some("#,##0 ;(#,##0)")
    case 38 => Some("#,##0 ;[Red](#,##0)")
    case 39 => Some("#,##0.00;(#,##0.00)")
    case 40 => Some("#,##0.00;[Red](#,##0.00)")
    case 45 => Some("mm:ss")
    case 46 => Some("[h]:mm:ss")
    case 47 => Some("mmss.0")
    case 48 => Some("##0.0E+0")
    case 49 => Some("@")
    case _ => None
  }

  /** The precedence rules over an already lower-cased code: the exceptional
      table first, then '#', then the date letters (with or without time
      letters), then the time letters, then '%', and Float otherwise. */
  function Classify(f: string): (t: CellType)
    ensures IsNumericFamily(t)
  {
    if f in ExceptionalFormats then ExceptionalFormats[f]
    else if '#' in f then Float
    else if 'd' in f || 'y' in f then (if 'h' in f || 's' in f then DateTime else Date)
    else if 'h' in f || 's' in f then Time
    else if '%' in f then Percentage
    else Float
  }

  /** `Format.to_type`: the type a format code (possibly nil, read as "")
      gives its cells, classified after lower-casing. */
  function ToType(format: Option<string>): (t: CellType)
    ensures IsNumericFamily(t)
  {
    Classify(Lower(NilToS(format)))
  }

  /** The lower-cased code carries no date letter, no time letter and no '#'. */
  predicate PlainNumeric(f: string) {
    '#' !in f && 'd' !in f && 'y' !in f && 'h' !in f && 's' !in f
  }

  /** The classification, stated one type at a time in both directions. The
      two twelve-hour codes are dates although they contain 'h' and 's'. */
  lemma ToTypeCharacterised(format: Option<string>)
    ensures var f := Lower(NilToS(format));
      && (ToType(format) == DateTime <==>
            f !in ExceptionalFormats && '#' !in f && ('d' in f || 'y' in f) && ('h' in f || 's' in f))
      && (ToType(format) == Date <==>
            f in ExceptionalFormats ||
            ('#' !in f && ('d' in f || 'y' in f) && 'h' !in f && 's' !in f))
      && (ToType(format) == Time <==>
            f !in ExceptionalFormats && '#' !in f && 'd' !in f && 'y' !in f && ('h' in f || 's' in f))
      && (ToType(format) == Percentage <==>
            f !in ExceptionalFormats && PlainNumeric(f) && '%' in f)
      && (ToType(format) == Float <==>
            f !in ExceptionalFormats && ('#' in f || (PlainNumeric(f) && '%' !in f)))
  {
    var f := Lower(NilToS(format));
    if f in ExceptionalFormats {
      assert f == "h:mm am/pm" || f == "h:mm:ss am/pm";
      assert 'h' in f && '#' !in f && 'd' !in f && 'y' !in f;
    }
  }

  /** `#` and `%` are not letters, so the classifier sees them whatever the
      case of the code. */
  lemma ToTypeOfHash(code: string)
    requires '#' in code
    requires Lower(code) !in ExceptionalFormats
    ensures ToType(Some(code)) == Float
  {
    LowerKeeps(code, '#');
  }

  /** Classification ignores case: a code and its lower-cased form agree. */
  lemma ToTypeIgnoresCase(code: string)
    ensures ToType(Some(code)) == ToType(Some(Lower(code)))
  {
    LowerIdempotent(code);
  }

  /** A format code that resolves to nothing (an id the built-in table does
      not list) reads as "" and gives Float, as "General" does. */
  lemma ToTypeOfNothing()
    ensures ToType(None) == Float
    ensures ToType(Some("General")) == Float
  {
    assert Lower("General") == "general";
  }

  /** Built-in id 38 contains '#', which wins over the 'd' of "[Red]". */
  lemma StandardRedAccountingIsFloat()
    ensures ToType(StandardFormat(38)) == Float
  {
    assert Lower("#,##0 ;[Red](#,##0)") == "#,##0 ;[red](#,##0)";
  }

  /** Built-in id 18, "h:mm AM/PM", is a Date by the exceptional table. */
  lemma StandardTwelveHourIsDate()
    ensures ToType(StandardFormat(18)) == Date
  {
    assert Lower("h:mm AM/PM") == "h:mm am/pm";
  }

  /** Built-in id 19, "h:mm:ss AM/PM", is a Date by the exceptional table. */
  lemma StandardTwelveHourSecondsIsDate()
    ensures ToType(StandardFormat(19)) == Date
  {
    assert Lower("h:mm:ss AM/PM") == "h:mm:ss am/pm";
  }

  /** Built-in id 45, "mm:ss", contains 's' and so gives Time. */
  lemma StandardMinutesIsTime()
    ensures ToType(StandardFormat(45)) == Time
  {
    assert Lower("mm:ss") == "mm:ss";
  }

  /** The two twelve-hour codes are dates whatever their case, although
      they contain 'h' and 's'. */
  lemma ExceptionalIsDate(code: string)
    requires Lower(code) in ExceptionalFormats
    ensures ToType(Some(code)) == Date
  {
    LowerIdempotent(code);
  }
}

=== FILE: rows.dfy ===
/** Row assembly (`each_row`, `each_row_loaded`, `each_row_streaming`,
    `cells_for_row_element`): a sheet's declared rows with a blank row for
    every row number skipped, each row an array indexed by column - 1, and
    the `strip_nils` and `max_rows` options applied. Loaded and streamed
    sheets run the same gap rule over their `row` elements. */
module Rows {
  import opened Common
  import opened RubyCore
  import opened Xml
  import opened CellDecoder
  import opened Sheets

  /** `xml_row_pos`: the row's `r` attribute read as an integer, 0 when absent. */
  function RowPos(row: Element): int {
    NilToI(Attr(row, "r"))
  }

  // ---------------------------------------------------------------- blank rows

  /** A row to yield: a synthesised blank one, or a declared `row` element. */
  datatype Slot = Blank | Declared(row: Element)

  /** The number of row numbers strictly between `last` and `pos`. */
  function Gap(last: int, pos: int): (n: nat)
    ensures last + 1 + n >= pos
    ensures n > 0 ==> last + 1 + n == pos
  {
    if pos - last - 1 > 0 then pos - last - 1 else 0
  }

  function Blanks(n: nat): (r: seq<Slot>)
    ensures |r| == n && forall i :: 0 <= i < n ==> r[i] == Blank
  {
    seq(n, i => Blank)
  }

  /** The declared rows, each preceded by a blank row for every number
      skipped since the previous row's number (`last`, 0 at the start). */
  function FillGaps(rows: seq<Element>, last: int): seq<Slot> {
    if |rows| == 0 then []
    else Blanks(Gap(last, RowPos(rows[0]))) + [Declared(rows[0])] + FillGaps(rows[1..], RowPos(rows[0]))
  }

  /** The declared rows among `slots`, in order. */
  function DeclaredRows(slots: seq<Slot>): seq<Element> {
    if |slots| == 0 then []
    else (if slots[0].Declared? then [slots[0].row] else []) + DeclaredRows(slots[1..])
  }

  lemma {:induction false} DeclaredRowsConcat(a: seq<Slot>, b: seq<Slot>)
    ensures DeclaredRows(a + b) == DeclaredRows(a) + DeclaredRows(b)
  {
    if |a| == 0 {
      assert a + b == b;
    } else {
      assert (a + b)[0] == a[0];
      assert (a + b)[1..] == a[1..] + b;
      DeclaredRowsConcat(a[1..], b);
    }
  }

  lemma {:induction false} DeclaredRowsOfBlanks(n: nat)
    ensures DeclaredRows(Blanks(n)) == []
  {
    if n > 0 {
      assert Blanks(n)[1..] == Blanks(n - 1);
      DeclaredRowsOfBlanks(n - 1);
    }
  }

  /** Filling gaps adds only blank rows: every declared row is yielded once,
      in document order. */
  lemma {:induction false} FillGapsKeepsRows(rows: seq<Element>, last: int)
    ensures DeclaredRows(FillGaps(rows, last)) == rows
  {
    if |rows| > 0 {
      var p := RowPos(rows[0]);
      var head := Blanks(Gap(last, p)) + [Declared(rows[0])];
      FillGapsKeepsRows(rows[1..], p);
      DeclaredRowsConcat(head, FillGaps(rows[1..], p));
      DeclaredRowsConcat(Blanks(Gap(last, p)), [Declared(rows[0])]);
      DeclaredRowsOfBlanks(Gap(last, p));
      assert DeclaredRows([Declared(rows[0])]) == [rows[0]];
      assert [rows[0]] + rows[1..] == rows;
    }
  }

  /** Row numbers that start after `last` and strictly increase. */
  predicate Ascending(rows: seq<Element>, last: int) {
    && (|rows| > 0 ==> last < RowPos(rows[0]))
    && (forall i :: 0 <= i < |rows| - 1 ==> RowPos(rows[i]) < RowPos(rows[i + 1]))
  }

  /** With ascending row numbers, the yielded rows run up to the last row
      number, and the row numbered `p` is yielded in place `p - last - 1`. */
  lemma {:induction false} FillGapsPositions(rows: seq<Element>, last: int)
    requires Ascending(rows, last)
    ensures var r := FillGaps(rows, last);
      && |r| == (if |rows| == 0 then 0 else RowPos(rows[|rows| - 1]) - last)
      && forall j :: 0 <= j < |r| && r[j].Declared? ==> RowPos(r[j].row) == last + 1 + j
  {
    if |rows| > 0 {
      var p := RowPos(rows[0]);
      var g := Gap(last, p);
      var head := Blanks(g) + [Declared(rows[0])];
      var tail := FillGaps(rows[1..], p);
      assert Ascending(rows[1..], p) by {
        if |rows| > 1 {
          assert rows[1..][0] == rows[1];
        }
        forall i | 0 <= i < |rows[1..]| - 1
          ensures RowPos(rows[1..][i]) < RowPos(rows[1..][i + 1])
        {
          assert rows[1..][i] == rows[i + 1] && rows[1..][i + 1] == rows[i + 2];
        }
      }
      FillGapsPositions(rows[1..], p);
      var r := FillGaps(rows, last);
      assert r == head + tail;
      assert |head| == p - last;
      forall j | 0 <= j < |r| && r[j].Declared?
        ensures RowPos(r[j].row) == last + 1 + j
      {
        if j < |head| {
          assert j == g && r[j] == Declared(rows[0]);
        } else {
          assert r[j] == tail[j - |head|];
        }
      }
      if |rows| > 1 {
        assert rows[1..][|rows[1..]| - 1] == rows[|rows| - 1];
      }
    }
  }

  // ---------------------------------------------------------------- one row

  /** An entry of a yielded row: nil, a whole cell (`cells: true`) or a value. */
  datatype Entry = Nil | CellEntry(cell: Cell) | ValueEntry(value: CellValue)

  /** What `cells_for_row_element` stores for a cell; a cell without a value
      stores nil when values are asked for. */
  function EntryOf(c: Cell, asCells: bool): (e: Entry)
    ensures asCells ==> e == CellEntry(c)
    ensures !asCells ==> (e == Nil <==> c.value == NoValue)
    ensures !asCells && e != Nil ==> e == ValueEntry(c.value)
  {
    if asCells then CellEntry(c) else if c.value == NoValue then Nil else ValueEntry(c.value)
  }

  /** `row[i] = e` on a Ruby array: the array grows with nils up to `i`. */
  function Place(row: seq<Entry>, i: nat, e: Entry): (r: seq<Entry>)
    ensures |r| == if i < |row| then |row| else i + 1
    ensures r[i] == e
    ensures forall j :: 0 <= j < |r| && j != i ==> r[j] == (if j < |row| then row[j] else Nil)
  {
    if i < |row| then row[i := e] else row + seq(i - |row|, j => Nil) + [e]
  }

  predicate Positioned(cells: seq<Cell>) {
    forall i :: 0 <= i < |cells| ==> cells[i].coord.col >= 1
  }

  /** The cells placed in order, each at its column - 1. */
  function Assemble(cells: seq<Cell>, asCells: bool): seq<Entry>
    requires Positioned(cells)
  {
    if |cells| == 0 then []
    else
      var last := cells[|cells| - 1];
      Place(Assemble(cells[..|cells| - 1], asCells), last.coord.col - 1, EntryOf(last, asCells))
  }

  /** The last of `cells` in column `col`. */
  function LastInColumn(cells: seq<Cell>, col: nat): (r: Option<Cell>)
    ensures r.Some? ==> r.value in cells && r.value.coord.col == col
  {
    if |cells| == 0 then None
    else if cells[|cells| - 1].coord.col == col then Some(cells[|cells| - 1])
    else LastInColumn(cells[..|cells| - 1], col)
  }

  /** The greatest column among `cells`, 0 when there are none. */
  function MaxColumn(cells: seq<Cell>): (m: nat)
    ensures forall i :: 0 <= i < |cells| ==> cells[i].coord.col <= m
  {
    if |cells| == 0 then 0
    else
      var m := MaxColumn(cells[..|cells| - 1]);
      if cells[|cells| - 1].coord.col > m then cells[|cells| - 1].coord.col else m
  }

  /** The assembled row reaches the greatest column, and the entry at
      index k is the last cell in column k + 1, or nil if none is there. */
  lemma {:induction false} AssembleLastWins(cells: seq<Cell>, asCells: bool)
    requires Positioned(cells)
    ensures var row := Assemble(cells, asCells);
      && |row| == MaxColumn(cells)
      && forall k :: 0 <= k < |row| ==>
           row[k] == match LastInColumn(cells, k + 1) case None => Nil case Some(c) => EntryOf(c, asCells)
  {
    if |cells| > 0 {
      var init := cells[..|cells| - 1];
      assert Positioned(init) by {
        forall i | 0 <= i < |init| ensures init[i].coord.col >= 1 {
          assert init[i] == cells[i];
        }
      }
      AssembleLastWins(init, asCells);
      var last := cells[|cells| - 1];
      var prev := Assemble(init, asCells);
      var row := Assemble(cells, asCells);
      forall k | 0 <= k < |row|
        ensures row[k] == match LastInColumn(cells, k + 1) case None => Nil case Some(c) => EntryOf(c, asCells)
      {
        if k != last.coord.col - 1 {
          assert LastInColumn(cells, k + 1) == LastInColumn(init, k + 1);
          if k >= |prev| {
            assert forall i :: 0 <= i < |init| ==> init[i].coord.col != k + 1;
            assert LastInColumn(init, k + 1).None?;
          }
        }
      }
    }
  }

  /** Every element of `es` parsed as a cell; the first failure is the result. */
  function ParseAll(d: Decoder, es: seq<Element>, sheet: Option<string>): (r: Result<seq<Cell>>)
    ensures r.Ok? <==> forall i :: 0 <= i < |es| ==> ParseCell(d, es[i], sheet).Ok?
    ensures r.Ok? ==> |r.value| == |es| && Positioned(r.value)
    ensures r.Ok? ==> forall i :: 0 <= i < |es| ==> ParseCell(d, es[i], sheet) == Ok(r.value[i])
    ensures r.Err? ==>
      exists k :: 0 <= k < |es| && ParseCell(d, es[k], sheet) == Err(r.error)
        && forall i :: 0 <= i < k ==> ParseCell(d, es[i], sheet).Ok?
    ensures r.Err? ==> DecodeError(r.error)
  {
    Traverse(e => ParseCell(d, e, sheet), es)
  }

  /** `cells_for_row_element`: the row's children parsed as cells and placed
      at column - 1. */
  function CellsForRow(d: Decoder, row: Element, sheet: Option<string>, asCells: bool): (r: Result<seq<Entry>>)
    ensures r.Err? ==> DecodeError(r.error)
  {
    var cells :- ParseAll(d, row.children, sheet);
    Ok(Assemble(cells, asCells))
  }

  // ---------------------------------------------------------------- each_row's options

  /** An entry `strip_nils` removes: nil, or a cell without a value. */
  predicate IsNilEntry(e: Entry) {
    e.Nil? || (e.CellEntry? && e.cell.value == NoValue)
  }

  /** A row that `strip_nils` leaves without a trailing nil. */
  predicate Stripped(row: seq<Entry>) {
    |row| == 0 || !IsNilEntry(row[|row| - 1])
  }

  /** `row.pop while ...`: the trailing nil entries removed, nothing else. */
  function StripNils(row: seq<Entry>): (r: seq<Entry>)
    ensures r <= row
    ensures Stripped(r)
    ensures forall i :: |r| <= i < |row| ==> IsNilEntry(row[i])
  {
    if |row| > 0 && IsNilEntry(row[|row| - 1]) then StripNils(row[..|row| - 1]) else row
  }

  /** `max_rows`: iteration stops once that many rows were yielded, blank rows
      included. A count below 1 is never reached, so it does not limit. */
  function Limit<T>(rows: seq<T>, maxRows: Option<int>): (r: seq<T>)
    ensures r <= rows
    ensures maxRows.Some? && 1 <= maxRows.value <= |rows| ==> |r| == maxRows.value
    ensures maxRows.None? || maxRows.value < 1 || maxRows.value > |rows| ==> r == rows
  {
    if maxRows.Some? && 1 <= maxRows.value < |rows| then rows[..maxRows.value] else rows
  }

  // ---------------------------------------------------------------- each_row

  /** The options `each_row` reads. The sheet is always named. */
  datatype RowOptions = RowOptions(sheet: string, maxRows: Option<int>, stripNils: bool, cells: bool)

  /** The `row` elements a loaded sheet iterates: `/worksheet/sheetData/row`. */
  function LoadedRows(doc: Element): seq<Element> {
    if doc.name == "worksheet" then Step(ChildrenNamed(doc, "sheetData"), "row") else []
  }

  /** The `row` elements a streamed sheet meets: every `row` start tag. */
  function StreamedRows(doc: Element): seq<Element> {
    Named(doc, "row")
  }

  /** `each_row_loaded` up to parsing: refused when the sheets were not loaded. */
  function LoadedSlots(wb: Workbook, sheet: string): (r: Result<seq<Slot>>)
    ensures !wb.loaded ==> r == Err(NotLoaded)
    ensures wb.loaded && SheetPart(wb, sheet).Ok? ==> r == Ok(FillGaps(LoadedRows(SheetPart(wb, sheet).value), 0))
    ensures wb.loaded && SheetPart(wb, sheet).Err? ==> r == Err(InvalidSheet(sheet))
  {
    if !wb.loaded then Err(NotLoaded)
    else
      var doc :- SheetPart(wb, sheet);
      Ok(FillGaps(LoadedRows(doc), 0))
  }

  /** `each_row_streaming` up to parsing: refused when the sheets were loaded. */
  function StreamedSlots(wb: Workbook, sheet: string): (r: Result<seq<Slot>>)
    ensures wb.loaded ==> r == Err(AlreadyLoaded)
    ensures !wb.loaded && SheetPart(wb, sheet).Ok? ==> r == Ok(FillGaps(StreamedRows(SheetPart(wb, sheet).value), 0))
    ensures !wb.loaded && SheetPart(wb, sheet).Err? ==> r == Err(InvalidSheet(sheet))
  {
    if wb.loaded then Err(AlreadyLoaded)
    else
      var doc :- SheetPart(wb, sheet);
      Ok(FillGaps(StreamedRows(doc), 0))
  }

  /** One yielded row: a blank row is empty, a declared row is assembled. */
  function RowOf(d: Decoder, slot: Slot, opts: RowOptions): (r: Result<seq<Entry>>)
    ensures slot.Blank? ==> r == Ok([])
    ensures slot.Declared? ==> (r.Ok? <==> ParseAll(d, slot.row.children, Some(opts.sheet)).Ok?)
    ensures slot.Declared? && r.Err? ==> r.error == ParseAll(d, slot.row.children, Some(opts.sheet)).error
    ensures slot.Declared? && r.Ok? ==>
      var entries := Assemble(ParseAll(d, slot.row.children, Some(opts.sheet)).value, opts.cells);
      r.value == if opts.stripNils then StripNils(entries) else entries
    ensures r.Err? ==> DecodeError(r.error)
    ensures r.Ok? && opts.stripNils ==> Stripped(r.value)
  {
    match slot
    case Blank => Ok([])
    case Declared(row) =>
      var entries :- CellsForRow(d, row, Some(opts.sheet), opts.cells);
      Ok(if opts.stripNils then StripNils(entries) else entries)
  }

  /** The rows of `slots`, in order; the first failure is the result. */
  function RowsOf(d: Decoder, slots: seq<Slot>, opts: RowOptions): (r: Result<seq<seq<Entry>>>)
    ensures r.Ok? <==> forall i :: 0 <= i < |slots| ==> RowOf(d, slots[i], opts).Ok?
    ensures r.Ok? ==> |r.value| == |slots|
    ensures r.Ok? ==> forall i :: 0 <= i < |slots| ==> RowOf(d, slots[i], opts) == Ok(r.value[i])
    ensures r.Err? ==>
      exists k :: 0 <= k < |slots| && RowOf(d, slots[k], opts) == Err(r.error)
        && forall i :: 0 <= i < k ==> RowOf(d, slots[i], opts).Ok?
    ensures r.Err? ==> DecodeError(r.error)
  {
    Traverse(s => RowOf(d, s, opts), slots)
  }

  /** The slots of whichever traversal the workbook was opened for. */
  function Slots(wb: Workbook, sheet: string): (r: Result<seq<Slot>>)
    ensures r.Err? <==> SheetPart(wb, sheet).Err?
    ensures r.Err? ==> r.error == InvalidSheet(sheet)
  {
    if wb.loaded then LoadedSlots(wb, sheet) else StreamedSlots(wb, sheet)
  }

  /** The number of rows `max_rows` lets through out of `n`. */
  function Kept(n: nat, maxRows: Option<int>): nat {
    if maxRows.Some? && 1 <= maxRows.value <= n then maxRows.value else n
  }

  /** `r` is what iterating over `slots` gives: Ok exactly when every row up
      to `max_rows` parses, each row then being its slot's row, and
      otherwise the error of the first row that raises. */
  predicate RowsOfSlots(d: Decoder, slots: seq<Slot>, opts: RowOptions, r: Result<seq<seq<Entry>>>) {
    var n := Kept(|slots|, opts.maxRows);
    && (r.Ok? <==> forall j :: 0 <= j < n ==> RowOf(d, slots[j], opts).Ok?)
    && (r.Ok? ==> |r.value| == n && forall j :: 0 <= j < n ==> RowOf(d, slots[j], opts) == Ok(r.value[j]))
    && (r.Err? ==>
          exists k :: 0 <= k < n && RowOf(d, slots[k], opts) == Err(r.error)
            && forall j :: 0 <= j < k ==> RowOf(d, slots[j], opts).Ok?)
  }

  /** The rows yielded for `slots`: cut at `max_rows`, then parsed. */
  function LimitedRows(d: Decoder, slots: seq<Slot>, opts: RowOptions): (r: Result<seq<seq<Entry>>>)
    ensures RowsOfSlots(d, slots, opts, r)
    ensures r.Err? ==> DecodeError(r.error)
    ensures r.Ok? ==> forall j :: 0 <= j < |r.value| && slots[j].Blank? ==> r.value[j] == []
    ensures r.Ok? && opts.stripNils ==> forall j :: 0 <= j < |r.value| ==> Stripped(r.value[j])
  {
    var kept := Limit(slots, opts.maxRows);
    assert |kept| == Kept(|slots|, opts.maxRows);
    assert forall j :: 0 <= j < |kept| ==> kept[j] == slots[j];
    RowsOf(d, kept, opts)
  }

  /** `each_row`: the loaded or the streamed traversal, whichever the
      workbook was opened for, cut at `max_rows` before any row past it is
      parsed, each row stripped of trailing nils when asked. Blank rows are
      yielded empty and count towards `max_rows`. */
  function EachRow(wb: Workbook, opts: RowOptions): (r: Result<seq<seq<Entry>>>)
    ensures r.Err? ==> r.error != NotLoaded && r.error != AlreadyLoaded
    ensures SheetPart(wb, opts.sheet).Err? ==> r == Err(InvalidSheet(opts.sheet))
    ensures SheetPart(wb, opts.sheet).Ok? ==> RowsOfSlots(wb.decoder, Slots(wb, opts.sheet).value, opts, r)
    ensures r.Ok? ==> Slots(wb, opts.sheet).Ok?
    ensures r.Ok? ==>
      var slots := Slots(wb, opts.sheet).value;
      && (forall j :: 0 <= j < |r.value| && slots[j].Blank? ==> r.value[j] == [])
      && (opts.stripNils ==> forall j :: 0 <= j < |r.value| ==> Stripped(r.value[j]))
  {
    var slots :- Slots(wb, opts.sheet);
    LimitedRows(wb.decoder, slots, opts)
  }

  /** A declared row holds, at index k, the last cell of its row element in
      column k + 1 (nil where there is none), and runs to the row's greatest
      column unless `strip_nils` cut trailing nils. */
  lemma DeclaredRowIsAssembled(d: Decoder, slot: Slot, opts: RowOptions)
    requires slot.Declared? && RowOf(d, slot, opts).Ok?
    ensures var cells := ParseAll(d, slot.row.children, Some(opts.sheet));
      var row := RowOf(d, slot, opts).value;
      && cells.Ok?
      && |row| <= MaxColumn(cells.value)
      && (!opts.stripNils ==> |row| == MaxColumn(cells.value))
      && forall k :: 0 <= k < |row| ==>
           row[k] == match LastInColumn(cells.value, k + 1) case None => Nil case Some(c) => EntryOf(c, opts.cells)
  {
    var cells := ParseAll(d, slot.row.children, Some(opts.sheet)).value;
    var entries := Assemble(cells, opts.cells);
    AssembleLastWins(cells, opts.cells);
    var row := RowOf(d, slot, opts).value;
    assert row <= entries;
    forall k | 0 <= k < |row|
      ensures row[k] == match LastInColumn(cells, k + 1) case None => Nil case Some(c) => EntryOf(c, opts.cells)
    {
      assert row[k] == entries[k];
    }
  }

  // ---------------------------------------------------------------- what a block receives

  /** The rows of `slots` handed over one at a time; a row that raises ends
      the iteration, after every row before it was handed over. */
  function YieldRows(d: Decoder, slots: seq<Slot>, opts: RowOptions): (y: Prefix<seq<Entry>>)
    ensures |y.values| <= |slots|
    ensures forall j :: 0 <= j < |y.values| ==> RowOf(d, slots[j], opts) == Ok(y.values[j])
    ensures y.failure.None? <==> |y.values| == |slots|
    ensures y.failure.Some? ==> RowOf(d, slots[|y.values|], opts) == Err(y.failure.value)
  {
    TraversePrefix(s => RowOf(d, s, opts), slots)
  }

  /** `each_row` with a block: the traversal's guards raise before any row
      is handed over; otherwise the block receives the rows up to
      `max_rows`, stopping at the first row that raises. */
  function EachRowYields(wb: Workbook, opts: RowOptions): (r: Result<Prefix<seq<Entry>>>)
    ensures r.Err? <==> SheetPart(wb, opts.sheet).Err?
    ensures r.Err? ==> r.error == InvalidSheet(opts.sheet)
    ensures r.Ok? ==>
      var slots := Slots(wb, opts.sheet).value;
      var y := r.value;
      && |y.values| <= Kept(|slots|, opts.maxRows)
      && (forall j :: 0 <= j < |y.values| ==> RowOf(wb.decoder, slots[j], opts) == Ok(y.values[j]))
      && (y.failure.None? <==> |y.values| == Kept(|slots|, opts.maxRows))
      && (y.failure.Some? ==> RowOf(wb.decoder, slots[|y.values|], opts) == Err(y.failure.value))
  {
    var slots :- Slots(wb, opts.sheet);
    var kept := Limit(slots, opts.maxRows);
    assert |kept| == Kept(|slots|, opts.maxRows);
    assert forall j :: 0 <= j < |kept| ==> kept[j] == slots[j];
    Ok(YieldRows(wb.decoder, kept, opts))
  }

  /** Collecting the rows `each_row` hands over gives its rows when none
      raises, and the failing row's error otherwise. */
  lemma EachRowIsYielded(wb: Workbook, opts: RowOptions)
    ensures EachRowYields(wb, opts).Err? ==> EachRow(wb, opts) == Err(EachRowYields(wb, opts).error)
    ensures EachRowYields(wb, opts).Ok? ==>
      var y := EachRowYields(wb, opts).value;
      EachRow(wb, opts) == if y.failure.None? then Ok(y.values) else Err(y.failure.value)
  {
    if SheetPart(wb, opts.sheet).Ok? {
      var slots := Slots(wb, opts.sheet).value;
      TraverseIsPrefix(s => RowOf(wb.decoder, s, opts), Limit(slots, opts.maxRows));
    }
  }

  /** Cutting the rows at `n` hands over the first `n` of the rows handed
      over without the cut, so a row past the cut is never parsed and one
      that would raise there changes nothing. `max_rows` and a block that
      stops early both rely on this. */
  lemma YieldCutIsPrefix(d: Decoder, slots: seq<Slot>, opts: RowOptions, n: nat)
    requires n <= |slots|
    ensures var whole := YieldRows(d, slots, opts);
      var cut := YieldRows(d, slots[..n], opts);
      && (|whole.values| >= n ==> cut == Prefix(whole.values[..n], None))
      && (|whole.values| < n ==> cut == whole)
  {
    TraversePrefixCut(s => RowOf(d, s, opts), slots, n);
  }

  // ---------------------------------------------------------------- the two traversals agree

  /** No `row` element below `e`. */
  predicate RowFree(e: Element) {
    NamedAll(e.children, "row") == []
  }

  /** A child of the worksheet root that is not a row and holds no row,
      except that a `sheetData` holds rows with no row inside them. */
  predicate RowsOnlyInSheetData(c: Element) {
    && c.name != "row"
    && (c.name == "sheetData" ==> forall j :: 0 <= j < |c.children| ==> RowFree(c.children[j]))
    && (c.name != "sheetData" ==> RowFree(c))
  }

  /** A worksheet whose `row` elements are exactly the children of its
      `sheetData` elements: no row elsewhere, and none inside a row. */
  predicate RowsInSheetData(doc: Element) {
    && doc.name == "worksheet"
    && forall i :: 0 <= i < |doc.children| ==> RowsOnlyInSheetData(doc.children[i])
  }

  lemma {:induction false} FlatRows(es: seq<Element>)
    requires forall j :: 0 <= j < |es| ==> RowFree(es[j])
    ensures NamedAll(es, "row") == Select(es, "row")
  {
    if |es| > 0 {
      var tail := es[1..];
      assert forall j :: 0 <= j < |tail| ==> tail[j] == es[j + 1];
      FlatRows(tail);
    }
  }

  lemma {:induction false} TopRows(cs: seq<Element>)
    requires forall i :: 0 <= i < |cs| ==> RowsOnlyInSheetData(cs[i])
    ensures NamedAll(cs, "row") == Step(Select(cs, "sheetData"), "row")
  {
    if |cs| > 0 {
      var c := cs[0];
      var tail := cs[1..];
      assert forall i :: 0 <= i < |tail| ==> tail[i] == cs[i + 1];
      TopRows(tail);
      assert RowsOnlyInSheetData(c);
      var rest := Select(tail, "sheetData");
      assert NamedAll(cs, "row") == Named(c, "row") + NamedAll(tail, "row");
      if c.name == "sheetData" {
        FlatRows(c.children);
        assert Named(c, "row") == ChildrenNamed(c, "row");
        assert Select(cs, "sheetData") == [c] + rest;
        assert ([c] + rest)[1..] == rest;
        assert Step([c] + rest, "row") == ChildrenNamed(c, "row") + Step(rest, "row");
      } else {
        assert Named(c, "row") == [];
        assert Select(cs, "sheetData") == rest;
        assert NamedAll(cs, "row") == NamedAll(tail, "row");
      }
    }
  }

  /** On a worksheet whose rows all sit in `sheetData`, streaming meets the
      same rows, in the same order, as the loaded traversal. */
  lemma StreamedRowsAreLoadedRows(doc: Element)
    requires RowsInSheetData(doc)
    ensures StreamedRows(doc) == LoadedRows(doc)
  {
    TopRows(doc.children);
  }

  /** Without that condition the traversals differ: a `row` outside
      `sheetData` (here inside `extLst`) is met only by the streamed one. */
  lemma RowOutsideSheetDataIsStreamedOnly()
    ensures var row := Element("row", map[], [], "");
      var doc := Element("worksheet", map[], [Element("sheetData", map[], [], ""), Element("extLst", map[], [row], "")], "");
      StreamedRows(doc) == [row] && LoadedRows(doc) == []
  {
    var row := Element("row", map[], [], "");
    var sheetData := Element("sheetData", map[], [], "");
    var ext := Element("extLst", map[], [row], "");
    var doc := Element("worksheet", map[], [sheetData, ext], "");
    assert ChildrenNamed(doc, "sheetData") == [sheetData];
  }

  /** Hence `each_row` yields the same rows whether or not the workbook was
      opened with `minimal_load`. */
  lemma EachRowSameInBothModes(wb: Workbook, opts: RowOptions)
    requires SheetPart(wb, opts.sheet).Ok? && RowsInSheetData(SheetPart(wb, opts.sheet).value)
    ensures EachRow(wb.(loaded := true), opts) == EachRow(wb.(loaded := false), opts)
  {
    var loaded := wb.(loaded := true);
    var streamed := wb.(loaded := false);
    assert SheetPart(loaded, opts.sheet) == SheetPart(wb, opts.sheet) == SheetPart(streamed, opts.sheet);
    StreamedRowsAreLoadedRows(SheetPart(wb, opts.sheet).value);
    assert Slots(loaded, opts.sheet) == Slots(streamed, opts.sheet);
  }
}

=== FILE: ruby_core.dfy ===
/** The few Ruby core behaviours the Excelx decoder leans on: `String#to_i`,
    `String#downcase` (ASCII), `String#split`, substring search, and
    `Array#[]` with its negative indices. */
module RubyCore {
  import opened Common

  // ---------------------------------------------------------------- Array#[]

  /** `a[i]` on a Ruby array: a negative index counts from the end, and an
      index outside the array yields nil. */
  function RubyAt<T>(a: seq<T>, i: int): (r: Option<T>)
    ensures r.Some? <==> -|a| <= i < |a|
    ensures 0 <= i < |a| ==> r == Some(a[i])
    ensures -|a| <= i < 0 ==> r == Some(a[|a| + i])
  {
    if 0 <= i < |a| then Some(a[i])
    else if -|a| <= i < 0 then Some(a[|a| + i])
    else None
  }

  // ---------------------------------------------------------------- String#to_i

  /** The characters `String#to_i` skips before the number. */
  predicate IsSpace(c: char) {
    c == ' ' || c == '\t' || c == '\n' || c == '\r' || c as int == 11 || c as int == 12
  }

  predicate IsDigit(c: char) {
    '0' <= c <= '9'
  }

  predicate AllDigits(s: string) {
    forall i :: 0 <= i < |s| ==> IsDigit(s[i])
  }

  function DigitOf(c: char): (d: nat)
    requires IsDigit(c)
    ensures d < 10
  {
    c as int - '0' as int
  }

  function DigitChar(d: nat): (c: char)
    requires d < 10
    ensures IsDigit(c) && DigitOf(c) == d
  {
    ('0' as int + d) as char
  }

  /** `s` without its leading white space. */
  function DropSpaces(s: string): (r: string)
    ensures |r| <= |s| && r == s[|s| - |r|..]
    ensures |r| == 0 || !IsSpace(r[0])
  {
    if |s| > 0 && IsSpace(s[0]) then DropSpaces(s[1..]) else s
  }

  /** The longest prefix of `s` made of decimal digits. */
  function DigitRun(s: string): (r: string)
    ensures r <= s && AllDigits(r)
    ensures |r| < |s| ==> !IsDigit(s[|r|])
  {
    if |s| > 0 && IsDigit(s[0]) then [s[0]] + DigitRun(s[1..]) else []
  }

  /** The value of a string of decimal digits, most significant first. */
  function DigitsValue(d: string): nat
    requires AllDigits(d)
  {
    if |d| == 0 then 0 else DigitsValue(d[..|d| - 1]) * 10 + DigitOf(d[|d| - 1])
  }

  /** Ruby's `String#to_i` in base 10: skip white space, read an optional
      sign and the longest run of digits; anything unreadable gives 0. */
  function ToI(s: string): int {
    var t := DropSpaces(s);
    if |t| > 0 && t[0] == '-' then 0 - DigitsValue(DigitRun(t[1..]))
    else if |t| > 0 && t[0] == '+' then DigitsValue(DigitRun(t[1..]))
    else DigitsValue(DigitRun(t))
  }

  /** `x.to_i` where `x` may be nil: `nil.to_i` is 0. */
  function NilToI(o: Option<string>): int {
    match o
    case None => 0
    case Some(s) => ToI(s)
  }

  /** `x.to_s` where `x` may be nil: `nil.to_s` is the empty string. */
  function NilToS(o: Option<string>): string {
    o.GetOr("")
  }

  /** Decimal rendering of a natural number (`Integer#to_s`). */
  function NatToString(n: nat): (r: string)
    ensures |r| > 0 && AllDigits(r)
  {
    if n < 10 then [DigitChar(n)] else NatToString(n / 10) + [DigitChar(n % 10)]
  }

  lemma {:induction false} DigitsValueOfNatToString(n: nat)
    ensures DigitsValue(NatToString(n)) == n
  {
    if n >= 10 {
      var s := NatToString(n);
      assert s[..|s| - 1] == NatToString(n / 10);
      DigitsValueOfNatToString(n / 10);
    }
  }

  lemma {:induction false} DigitRunOfDigits(d: string, t: string)
    requires AllDigits(d)
    requires |t| == 0 || !IsDigit(t[0])
    ensures DigitRun(d + t) == d
  {
    if |d| > 0 {
      assert (d + t)[1..] == d[1..] + t;
      DigitRunOfDigits(d[1..], t);
    }
  }

  lemma ToIOfUnsigned(u: string)
    requires |u| > 0 && IsDigit(u[0])
    ensures ToI(u) == DigitsValue(DigitRun(u))
  {
    var c := u[0];
    assert !IsSpace(c) && c != '-' && c != '+';
    assert DropSpaces(u) == u;
  }

  lemma ToIOfDigits(d: string, t: string)
    requires |d| > 0 && AllDigits(d)
    requires |t| == 0 || !IsDigit(t[0])
    ensures ToI(d + t) == DigitsValue(d)
  {
    assert (d + t)[0] == d[0];
    ToIOfUnsigned(d + t);
    DigitRunOfDigits(d, t);
  }

  /** `to_i` reads back what `to_s` wrote, whatever non-digit text follows it. */
  lemma ToIOfNatString(n: nat, t: string)
    requires |t| == 0 || !IsDigit(t[0])
    ensures ToI(NatToString(n) + t) == n
  {
    DigitsValueOfNatToString(n);
    ToIOfDigits(NatToString(n), t);
  }

  // ---------------------------------------------------------------- String#downcase

  function LowerChar(c: char): char {
    if 'A' <= c <= 'Z' then (c as int + 32) as char else c
  }

  /** `String#downcase` restricted to ASCII letters. */
  function Lower(s: string): (r: string)
    ensures |r| == |s|
    ensures forall i :: 0 <= i < |s| ==> r[i] == LowerChar(s[i])
  {
    seq(|s|, i requires 0 <= i < |s| => LowerChar(s[i]))
  }

  lemma LowerIdempotent(s: string)
    ensures Lower(Lower(s)) == Lower(s)
  {
  }

  /** Lowering keeps every character that is not an upper-case letter. */
  lemma LowerKeeps(s: string, c: char)
    requires !('A' <= c <= 'Z')
    requires !('a' <= c <= 'z')
    ensures c in Lower(s) <==> c in s
  {
    if c in s {
      var i :| 0 <= i < |s| && s[i] == c;
      assert Lower(s)[i] == c;
    }
    if c in Lower(s) {
      var i :| 0 <= i < |s| && Lower(s)[i] == c;
      assert s[i] == c;
    }
  }

  // ---------------------------------------------------------------- substring search

  /** `p` occurs in `s` starting at index `k`. */
  predicate OccursAt(s: string, p: string, k: int) {
    0 <= k <= |s| && p <= s[k..]
  }

  /** The first index at which `p` occurs in `s`. */
  function FindSub(s: string, p: string): (r: Option<nat>)
    ensures r.Some? ==> OccursAt(s, p, r.value)
    ensures r.Some? ==> forall k :: 0 <= k < r.value ==> !OccursAt(s, p, k)
    ensures r.None? ==> forall k :: !OccursAt(s, p, k)
    decreases |s|
  {
    if |s| < |p| then None
    else if p <= s then Some(0)
    else
      assert forall k :: 1 <= k ==> (OccursAt(s, p, k) <==> OccursAt(s[1..], p, k - 1)) by {
        forall k | 1 <= k
          ensures OccursAt(s, p, k) <==> OccursAt(s[1..], p, k - 1)
        {
          if k <= |s| {
            assert s[k..] == s[1..][k - 1..];
          }
        }
      }
      match FindSub(s[1..], p)
      case None => None
      case Some(k) => Some(k + 1)
  }

  predicate ContainsSub(s: string, p: string) {
    FindSub(s, p).Some?
  }

  // ---------------------------------------------------------------- String#split

  /** `s.split(sep, 2)`: an empty string gives no pieces, a string without
      `sep` one piece, otherwise the text before and after the first `sep`. */
  function SplitOnce(s: string, sep: string): (r: seq<string>)
    ensures |s| == 0 ==> r == []
    ensures |s| > 0 && !ContainsSub(s, sep) ==> r == [s]
    ensures |r| <= 2
  {
    if |s| == 0 then []
    else match FindSub(s, sep)
      case None => [s]
      case Some(k) => [s[..k], s[k + |sep|..]]
  }

  /** The pieces between the occurrences of `c`, empty pieces included. */
  function Pieces(s: string, c: char): (r: seq<string>)
    ensures |r| > 0
    ensures forall i :: 0 <= i < |r| ==> c !in r[i]
  {
    if |s| == 0 then [""]
    else
      var rest := Pieces(s[1..], c);
      if s[0] == c then [""] + rest else [[s[0]] + rest[0]] + rest[1..]
  }

  /** Joins pieces back with `c` between them (`Array#join`). */
  function Join(parts: seq<string>, c: char): string
    requires |parts| > 0
  {
    if |parts| == 1 then parts[0] else parts[0] + [c] + Join(parts[1..], c)
  }

  /** Splitting at `c` loses nothing: joining the pieces restores the text. */
  lemma {:induction false} JoinPieces(s: string, c: char)
    ensures Join(Pieces(s, c), c) == s
  {
    if |s| > 0 {
      var rest := Pieces(s[1..], c);
      JoinPieces(s[1..], c);
      if s[0] == c {
        assert Pieces(s, c)[1..] == rest;
        assert s == [c] + s[1..];
      } else if |rest| == 1 {
        assert s == [s[0]] + s[1..];
      } else {
        assert Pieces(s, c)[1..] == rest[1..];
        assert Join(rest, c) == rest[0] + [c] + Join(rest[1..], c);
        assert s == [s[0]] + s[1..];
      }
    }
  }

  lemma {:induction false} PiecesOfSeparated(a: string, b: string, c: char)
    requires c !in a
    ensures Pieces(a + [c] + b, c) == [a] + Pieces(b, c)
  {
    if |a| == 0 {
      assert (a + [c] + b)[1..] == b;
    } else {
      assert (a + [c] + b)[1..] == a[1..] + [c] + b;
      PiecesOfSeparated(a[1..], b, c);
      assert a == [a[0]] + a[1..];
    }
  }

  lemma {:induction false} PiecesOfPlain(a: string, c: char)
    requires c !in a
    ensures Pieces(a, c) == [a]
  {
    if |a| > 0 {
      PiecesOfPlain(a[1..], c);
      assert a == [a[0]] + a[1..];
    }
  }

  /** Drops the empty strings at the end, as `String#split` without a limit does. */
  function DropTrailingEmpty(parts: seq<string>): (r: seq<string>)
    ensures r <= parts
    ensures |r| == 0 || r[|r| - 1] != ""
    ensures forall i :: |r| <= i < |parts| ==> parts[i] == ""
  {
    if |parts| > 0 && parts[|parts| - 1] == "" then DropTrailingEmpty(parts[..|parts| - 1]) else parts
  }

  /** `s.split(c)` for a one-character separator. */
  function Split(s: string, c: char): seq<string> {
    DropTrailingEmpty(Pieces(s, c))
  }
}

=== FILE: shared_strings.dfy ===
/** The shared-string table (`read_shared_strings`, section 18.4.8 of
    ECMA-376 Part 1): one entry per `si` item of the `sst` root, built from
    the item's plain `t` text and its rich-text runs `r`. */
module SharedStrings {
  import opened Common
  import opened Xml

  /** The `t` texts of one run, concatenated in order. */
  function RunText(r: Element): string {
    Texts(ChildrenNamed(r, "t"))
  }

  function Texts(ts: seq<Element>): string {
    if |ts| == 0 then "" else Texts(ts[..|ts| - 1]) + ts[|ts| - 1].text
  }

  /** What one child of an `si` item does to the entry built so far: a run
      appends its texts, a `t` replaces the entry, anything else is skipped. */
  function ItemStep(entry: string, child: Element): string {
    var appended := if child.name == "r" then entry + RunText(child) else entry;
    if child.name == "t" then child.text else appended
  }

  /** The entry after visiting `children` in order, starting from "". */
  function ItemFold(children: seq<Element>): string {
    if |children| == 0 then ""
    else ItemStep(ItemFold(children[..|children| - 1]), children[|children| - 1])
  }

  /** The entry of one `si` item. */
  function ItemEntry(si: Element): string {
    ItemFold(si.children)
  }

  /** `read_shared_strings`: the entry of each `si` child of an `sst` root, in
      order; a workbook without a shared-strings part has an empty table. */
  function ReadSharedStrings(doc: Option<Element>): (r: seq<string>)
    ensures doc.None? || doc.value.name != "sst" ==> r == []
    ensures doc.Some? && doc.value.name == "sst" ==>
      var items := ChildrenNamed(doc.value, "si");
      |r| == |items| && forall i :: 0 <= i < |items| ==> r[i] == ItemEntry(items[i])
  {
    match doc
    case None => []
    case Some(d) =>
      if d.name != "sst" then []
      else
        var items := ChildrenNamed(d, "si");
        seq(|items|, i requires 0 <= i < |items| => ItemEntry(items[i]))
  }

  // ---------------------------------------------------------------- reference reading

  /** The position of the last `t` child, if any. */
  function LastText(children: seq<Element>): (r: Option<nat>)
    ensures r.Some? ==> r.value < |children| && children[r.value].name == "t"
    ensures r.Some? ==> forall j :: r.value < j < |children| ==> children[j].name != "t"
    ensures r.None? ==> forall j :: 0 <= j < |children| ==> children[j].name != "t"
  {
    if |children| == 0 then None
    else if children[|children| - 1].name == "t" then Some(|children| - 1)
    else LastText(children[..|children| - 1])
  }

  /** The texts of every run in `children`, in order. */
  function RunsText(children: seq<Element>): string {
    if |children| == 0 then ""
    else
      var last := children[|children| - 1];
      RunsText(children[..|children| - 1]) + (if last.name == "r" then RunText(last) else "")
  }

  /** The entry read directly: the text of the last plain `t` child (or ""
      when there is none) followed by the texts of the runs after it. A `t`
      discards every run before it. */
  function ItemReference(children: seq<Element>): string {
    match LastText(children)
    case None => RunsText(children)
    case Some(k) => children[k].text + RunsText(children[k + 1..])
  }

  /** Reading an item directly agrees with one more step of the fold. */
  lemma ReferenceStep(children: seq<Element>)
    requires |children| > 0
    ensures var n := |children|;
      ItemReference(children) == ItemStep(ItemReference(children[..n - 1]), children[n - 1])
  {
    var n := |children|;
    var init := children[..n - 1];
    var last := children[n - 1];
    if last.name == "t" {
      assert LastText(children) == Some(n - 1);
      assert children[n..] == [];
    } else {
      assert LastText(children) == LastText(init);
      match LastText(init)
      case None =>
      case Some(k) => RunsTextAfter(children, k);
    }
  }

  /** The runs after position `k` of a non-empty sequence are those of its
      front part, followed by the last element's. */
  lemma RunsTextAfter(children: seq<Element>, k: nat)
    requires k < |children| - 1
    ensures var n := |children|; var last := children[n - 1];
      RunsText(children[k + 1..]) ==
        RunsText(children[..n - 1][k + 1..]) + (if last.name == "r" then RunText(last) else "")
  {
    var after := children[k + 1..];
    assert after[..|after| - 1] == children[..|children| - 1][k + 1..];
    assert after[|after| - 1] == children[|children| - 1];
  }

  lemma {:induction false} ItemFoldIsReference(children: seq<Element>)
    ensures ItemFold(children) == ItemReference(children)
  {
    if |children| > 0 {
      ItemFoldIsReference(children[..|children| - 1]);
      ReferenceStep(children);
    }
  }

  /** Every entry of the table is its item read directly. */
  lemma SharedEntryIsReference(doc: Element, i: int)
    requires doc.name == "sst" && 0 <= i < |ChildrenNamed(doc, "si")|
    ensures ReadSharedStrings(Some(doc))[i] == ItemReference(ChildrenNamed(doc, "si")[i].children)
  {
    ItemFoldIsReference(ChildrenNamed(doc, "si")[i].children);
  }

  /** An item made only of runs is the concatenation of the runs' texts. */
  lemma RunsOnlyItem(children: seq<Element>)
    requires forall j :: 0 <= j < |children| ==> children[j].name == "r"
    ensures ItemFold(children) == RunsText(children)
  {
    ItemFoldIsReference(children);
  }
}

=== FILE: sheets.dfy ===
/** The parts of an opened workbook that the reader consults: the workbook
    document, the sheet and comment documents by sheet index, whether the
    sheets were loaded up front, and the decoder built from the shared-string,
    styles and workbook parts. */
module Sheets {
  import opened Common
  import opened Xml
  import opened SharedStrings
  import opened Styles
  import opened Dates
  import opened CellDecoder

  /** `loaded` is false when the workbook was opened with `minimal_load`:
      its sheets are then only streamed, and its comments never read. */
  datatype Workbook = Workbook(
    workbook: Element,
    sheetParts: seq<Element>,
    commentParts: seq<Element>,
    loaded: bool,
    decoder: Decoder)

  /** The workbook as `initialize` leaves it: the shared strings, styles and
      base date decoded once, the sheet parts kept in either mode. */
  function Open(workbook: Element, sharedStrings: Option<Element>, styles: Option<Element>,
                sheetParts: seq<Element>, commentParts: seq<Element>, minimalLoad: bool,
                toF: string -> real): (wb: Workbook)
    ensures wb.loaded <==> !minimalLoad
    ensures wb.decoder.baseDate == ReadBaseDate(workbook)
    ensures wb.decoder.shared == ReadSharedStrings(sharedStrings)
    ensures wb.decoder.styles == ReadStyles(styles)
    ensures wb.workbook == workbook && wb.sheetParts == sheetParts && wb.commentParts == commentParts
    ensures wb.decoder.toF == toF
  {
    Workbook(workbook, sheetParts, commentParts, !minimalLoad,
             Decoder(ReadSharedStrings(sharedStrings), ReadStyles(styles), ReadBaseDate(workbook), toF))
  }

  /** `sheets`: the `name` of every `sheet` element of the workbook, in order. */
  function SheetNames(wb: Workbook): (r: seq<Option<string>>)
    ensures |r| == |Named(wb.workbook, "sheet")|
    ensures forall i :: 0 <= i < |r| ==> r[i] == Attr(Named(wb.workbook, "sheet")[i], "name")
  {
    var es := Named(wb.workbook, "sheet");
    seq(|es|, i requires 0 <= i < |es| => Attr(es[i], "name"))
  }

  /** The first position of `x` in `xs` (`Array#index`). */
  function IndexOf(xs: seq<Option<string>>, x: Option<string>): (r: Option<nat>)
    ensures r.Some? ==> r.value < |xs| && xs[r.value] == x
    ensures r.Some? ==> forall j :: 0 <= j < r.value ==> xs[j] != x
    ensures r.None? ==> forall j :: 0 <= j < |xs| ==> xs[j] != x
  {
    if |xs| == 0 then None
    else if xs[0] == x then Some(0)
    else match IndexOf(xs[1..], x)
      case None => None
      case Some(k) => Some(k + 1)
  }

  /** `sheet_index`: the position of the first sheet with that name. */
  function SheetIndex(wb: Workbook, name: string): Option<nat> {
    IndexOf(SheetNames(wb), Some(name))
  }

  /** The sheet document of a named sheet; a name the workbook does not list,
      or one with no sheet part at its position, is an invalid sheet. */
  function SheetPart(wb: Workbook, name: string): (r: Result<Element>)
    ensures r.Ok? <==> SheetIndex(wb, name).Some? && SheetIndex(wb, name).value < |wb.sheetParts|
    ensures r.Ok? ==> r.value == wb.sheetParts[SheetIndex(wb, name).value]
    ensures r.Err? ==> r.error == InvalidSheet(name)
  {
    match SheetIndex(wb, name)
    case None => Err(InvalidSheet(name))
    case Some(i) => if i < |wb.sheetParts| then Ok(wb.sheetParts[i]) else Err(InvalidSheet(name))
  }
}

=== FILE: styles.dfy ===
/** The style table (`read_styles`, `attribute2format`, `font`): custom number
    formats by id, the cell formats (`cellXfs`, section 18.8.10 of ECMA-376
    Part 1) that pair a style index with a number-format id and a font, and
    the font of each style index. */
module Styles {
  import opened Common
  import opened RubyCore
  import opened Xml
  import opened NumberFormat

  /** `Roo::Excelx::Font`: the presence of the `b`, `i` and `u` children. */
  datatype Font = Font(bold: bool, italic: bool, underline: bool)

  /** `@numFmts` (numFmtId attribute to formatCode attribute, either possibly
      nil) and `@cellXfs` (the numFmtId of each style index). */
  datatype FormatTable = FormatTable(numFmts: map<Option<string>, Option<string>>, cellXfs: seq<Option<string>>)

  /** The styles of a workbook. `formats` is nil when the workbook has no
      styles part, since `@numFmts` and `@cellXfs` are then never assigned;
      `definitions` (`@style_definitions`) is then empty. */
  datatype Styles = Styles(formats: Option<FormatTable>, definitions: seq<Option<Font>>)

  function FontOf(e: Element): Font {
    Font(HasChild(e, "b"), HasChild(e, "i"), HasChild(e, "u"))
  }

  /** The index after which no element of `es` has the same numFmtId as `es[i]`. */
  predicate LastWithId(es: seq<Element>, i: int) {
    0 <= i < |es| &&
    forall j :: i < j < |es| ==> Attr(es[j], "numFmtId") != Attr(es[i], "numFmtId")
  }

  /** `Hash[pairs]` over the numFmt elements: one key per id present. */
  function NumFmtMap(es: seq<Element>): (r: map<Option<string>, Option<string>>)
    ensures forall i :: 0 <= i < |es| ==> Attr(es[i], "numFmtId") in r
    ensures forall k :: k in r ==> exists i :: 0 <= i < |es| && Attr(es[i], "numFmtId") == k
  {
    if |es| == 0 then map[]
    else
      var init := es[..|es| - 1];
      var last := es[|es| - 1];
      assert forall i :: 0 <= i < |init| ==> init[i] == es[i];
      NumFmtMap(init)[Attr(last, "numFmtId") := Attr(last, "formatCode")]
  }

  /** A repeated id keeps the formatCode of its last numFmt element. */
  lemma {:induction false} NumFmtMapLastWins(es: seq<Element>, i: int)
    requires LastWithId(es, i)
    ensures NumFmtMap(es)[Attr(es[i], "numFmtId")] == Attr(es[i], "formatCode")
  {
    var init := es[..|es| - 1];
    if i < |es| - 1 {
      assert LastWithId(init, i) by {
        assert forall j :: i < j < |init| ==> init[j] == es[j];
      }
      assert init[i] == es[i];
      NumFmtMapLastWins(init, i);
    }
  }

  /** The `xf` children of every `cellXfs` element, in document order. */
  function CellFormats(doc: Element): seq<Element> {
    AllChildren(Named(doc, "cellXfs"))
  }

  /** The fonts of `//fonts/font`, in document order. */
  function Fonts(doc: Element): seq<Font> {
    var fs := Step(Named(doc, "fonts"), "font");
    seq(|fs|, i requires 0 <= i < |fs| => FontOf(fs[i]))
  }

  /** `read_styles`: each cell format contributes, at the same position, its
      number-format id and the font its fontId selects among `fonts`. */
  function ReadStyles(doc: Option<Element>): (r: Styles)
    ensures doc.None? ==> r == Styles(None, [])
    ensures doc.Some? ==> r.formats.Some?
    ensures doc.Some? ==> r.formats.value.numFmts == NumFmtMap(Named(doc.value, "numFmt"))
    ensures doc.Some? ==>
      var xfs := CellFormats(doc.value);
      && |r.formats.value.cellXfs| == |xfs| == |r.definitions|
      && (forall i :: 0 <= i < |xfs| ==>
            r.formats.value.cellXfs[i] == Attr(xfs[i], "numFmtId") &&
            r.definitions[i] == RubyAt(Fonts(doc.value), NilToI(Attr(xfs[i], "fontId"))))
  {
    match doc
    case None => Styles(None, [])
    case Some(d) =>
      var xfs := CellFormats(d);
      var fonts := Fonts(d);
      var ids := seq(|xfs|, i requires 0 <= i < |xfs| => Attr(xfs[i], "numFmtId"));
      var defs := seq(|xfs|, i requires 0 <= i < |xfs| => RubyAt(fonts, NilToI(Attr(xfs[i], "fontId"))));
      Styles(Some(FormatTable(NumFmtMap(Named(d, "numFmt")), ids)), defs)
  }

  /** The number-format id of a style index (`@cellXfs[s]`), nil when the
      index is out of range or the cell format has no numFmtId. */
  function FormatId(t: FormatTable, s: int): Option<string> {
    match RubyAt(t.cellXfs, s)
    case None => None
    case Some(id) => id
  }

  /** `attribute2format`: the custom code registered for the style's
      number-format id when there is one, else the built-in code of that id
      (nil when the built-in table has no such id; a missing id reads as 0). */
  function Attribute2Format(st: Styles, s: int): (r: Result<Option<string>>)
    ensures r.Err? <==> st.formats.None?
    ensures r.Ok? ==>
      var t := st.formats.value;
      var id := FormatId(t, s);
      if id in t.numFmts && t.numFmts[id].Some? then r.value == t.numFmts[id]
      else r.value == StandardFormat(NilToI(id))
  {
    match st.formats
    case None => Err(MissingStyles)
    case Some(t) =>
      var id := FormatId(t, s);
      if id in t.numFmts && t.numFmts[id].Some? then Ok(t.numFmts[id])
      else Ok(StandardFormat(NilToI(id)))
  }

  /** `font`: the font of a cell's style index, index 0 when the cell has
      none; nil when the index selects no font. */
  function FontAt(st: Styles, s: Option<int>): (r: Option<Font>)
    ensures var i := s.GetOr(0);
      && (0 <= i < |st.definitions| ==> r == st.definitions[i])
      && (-|st.definitions| <= i < 0 ==> r == st.definitions[|st.definitions| + i])
      && (!(-|st.definitions| <= i < |st.definitions|) ==> r.None?)
  {
    match RubyAt(st.definitions, s.GetOr(0))
    case None => None
    case Some(f) => f
  }

  /** A style whose number-format id has no custom code and is not a
      built-in id resolves to nil, which classifies as Float. */
  lemma UnknownFormatIsFloat(st: Styles, s: int)
    requires st.formats.Some?
    requires var id := FormatId(st.formats.value, s);
      (id !in st.formats.value.numFmts || st.formats.value.numFmts[id].None?) &&
      StandardFormat(NilToI(id)).None?
    ensures Attribute2Format(st, s) == Ok(None)
    ensures ToType(Attribute2Format(st, s).value) == Float
  {
    assert StandardFormat(NilToI(FormatId(st.formats.value, s))) == None;
    ToTypeOfNothing();
  }

  /** A style index outside the cell formats has no id; nil reads as id 0,
      "General", unless a numFmt without an id supplies a code. */
  lemma MissingIdIsGeneral(st: Styles, s: int)
    requires st.formats.Some?
    requires !(-|st.formats.value.cellXfs| <= s < |st.formats.value.cellXfs|)
    requires None !in st.formats.value.numFmts
    ensures Attribute2Format(st, s) == Ok(Some("General"))
    ensures ToType(Attribute2Format(st, s).value) == Float
  {
    assert FormatId(st.formats.value, s) == None;
    assert StandardFormat(0) == Some("General");
    ToTypeOfNothing();
  }
}

=== FILE: xml.dfy ===
/** The parsed XML the decoder consumes: an element with a name, attributes,
    child elements and its text content. Namespaces are dropped (names are
    local names), and the XPath queries the reader issues become the
    document-order selections below. */
module Xml {
  import opened Common

  /** `text` is the element's text content as the parser reports it
      (Nokogiri's `content`). */
  datatype Element = Element(name: string, attrs: map<string, string>, children: seq<Element>, text: string)

  /** `e['name']`: the attribute's value, or nil. */
  function Attr(e: Element, name: string): (r: Option<string>)
    ensures r.Some? <==> name in e.attrs
    ensures r.Some? ==> r.value == e.attrs[name]
  {
    if name in e.attrs then Some(e.attrs[name]) else None
  }

  /** The children of `e` called `name`, in document order (`./name`). */
  function ChildrenNamed(e: Element, name: string): (r: seq<Element>)
    ensures |r| <= |e.children|
    ensures forall i :: 0 <= i < |r| ==> r[i].name == name
  {
    Select(e.children, name)
  }

  /** The elements of `es` called `name`, in order. */
  function Select(es: seq<Element>, name: string): (r: seq<Element>)
    ensures |r| <= |es|
    ensures forall i :: 0 <= i < |r| ==> r[i].name == name
  {
    if |es| == 0 then []
    else (if es[0].name == name then [es[0]] else []) + Select(es[1..], name)
  }

  /** The children called `name` of every element of `es`, in order (one XPath step). */
  function Step(es: seq<Element>, name: string): seq<Element> {
    if |es| == 0 then [] else ChildrenNamed(es[0], name) + Step(es[1..], name)
  }

  /** The children of every element of `es`, in order. */
  function AllChildren(es: seq<Element>): (r: seq<Element>)
    ensures |es| == 1 ==> r == es[0].children
  {
    if |es| == 0 then [] else es[0].children + AllChildren(es[1..])
  }

  /** `e` or any element below it called `name`, in document order
      (`//name`, which is also the order a forward-only reader meets them). */
  function Named(e: Element, name: string): (r: seq<Element>)
    ensures forall i :: 0 <= i < |r| ==> r[i].name == name
    decreases e, 1
  {
    (if e.name == name then [e] else []) + NamedAll(e.children, name)
  }

  function NamedAll(es: seq<Element>, name: string): (r: seq<Element>)
    ensures forall i :: 0 <= i < |r| ==> r[i].name == name
    decreases es, 0
  {
    if |es| == 0 then [] else Named(es[0], name) + NamedAll(es[1..], name)
  }

  /** Whether `e` has a child called `name` (`!e.xpath('./name').empty?`). */
  predicate HasChild(e: Element, name: string) {
    exists i :: 0 <= i < |e.children| && e.children[i].name == name
  }
}
